=== FILE: README.md ===
# Limit order book, modelled in Dafny

This project models the in-memory limit order book of `test1.cpp`. The book
keeps the resting orders of two sides, buys and sells. Each side is a
table of price levels together with a list of those levels in priority
order (best price first) and a cached pointer to the best level. Each
level queues its orders in arrival order and keeps a running count and a
running signed size. The orders live in a fixed-capacity slot pool with a
LIFO free list. An id table maps each order id to its slot.

Modules, following the source's types:

- `Arena`: the slot pool `arena<T>`. A slot index stands for the `T*` it hands out.
- `Orders`: the `Order` record, `isBuy` and `toSide`.
- `IntrusiveList`: `LList` as the sequence it is meant to maintain.
- `PriceLevel`: `Level`.
- `LevelsIndex`: `LevelsIndex<Side>`, with the side as a value `Buy` or `Sell`.
- `OrderBook`: `OrderBook`, its public operations, its protected helpers and the book invariant `Valid`.
- `LiteralList`: `LList` and the miss path of `LevelsIndex::operator[]` exactly as written, pointer links included. It is used to exhibit the defects listed under Findings.
- `Scenarios`: short sessions against a book.

Modelling choices:

- Prices are integer ticks. The book only tests prices for equality and compares them by the sign of a difference. A price of 10.50 is written 1050.
- A level queue is a sequence of pool slots. The `next`/`prev` fields of `Order` and `Level` are what those sequences abstract.
- The side of an order is read back from the sign of its stored size, exactly as `isBuy` does. So a buy of size 0 is stored with size 0 and rests on the sell side.
- Every book operation is a pure function from a `Book` to a `Book`.
- The book operations require the invariant `OrderBook.Valid`, except `newOrder`, which needs only a valid slot pool. The constructor `NewBook` establishes it, and `newOrder`, `deleteOrder` and `replaceOrder` are proved to preserve it. `changeOrder` preserves it only when the new size keeps the order's side (`OrderBook.KeepsSide`); `Scenarios.ChangeFlipsSellOrder` shows a book reached from the constructor where it fails.
- The source's fatal assertions become preconditions: an unknown side character, an unknown id and a level index past the depth.
- `newOrder` registers its id with `emplace` (test1.cpp:224), which keeps an existing entry. The model requires a fresh id.

## Model

| member | source | states |
|---|---|---|
| Arena.NewPool | test1.cpp:10-15 | the pool has `size` records; the free list holds slots `0 .. size-1` pushed in index order, each once, so the highest slot is on top and allocations hand out `size-1`, `size-2`, … in turn |
| Arena.Insert | test1.cpp:17-31 | with a non-empty free list, the top slot is popped and overwritten; otherwise a new slot is appended; the slot holds the item and is no longer free; no other slot changes; the pool stays valid |
| Arena.Remove | test1.cpp:33 | the slot is pushed on the free list and storage is untouched (the record stays readable); a slot that was not free keeps the pool valid |
| Arena.Write | test1.cpp:231 | writing through a handle changes that record only and keeps the free list |
| Arena.RemoveThenInsert | test1.cpp:20-33 | LIFO reuse: the slot just released is the next one handed out, overwritten with the new item |
| Arena.InsertThenRemove | test1.cpp:17-33 | releasing the slot just handed out restores the free list; after growth it holds only the new slot |
| Orders.ToSide | test1.cpp:39-46 | 'b' maps to +1 and 's' to -1: a unit whose sign is positive exactly for 'b' |
| Orders.CreatedSide | test1.cpp:55-62 | an order created as `toSide(c) * size` reads as a buy exactly when it is a positive buy or a negative sell; its stored size is `size` for 'b' and `-size` for 's' |
| IntrusiveList.PushBack | test1.cpp:73-82 | the item becomes the last element and the earlier elements keep their places |
| IntrusiveList.PushFront | test1.cpp:84-89 | the item becomes the first element and the others shift by one |
| IntrusiveList.InsertBefore | test1.cpp:90-99 | with a null anchor the item goes at the end; otherwise it goes at the anchor's position, the anchor and its successors shifting by one |
| IntrusiveList.InsertBeforeMembers | test1.cpp:90-99 | the list after `insert_before` holds exactly the old elements and the new item |
| IntrusiveList.FindFirst | test1.cpp:101-108 | the result satisfies the predicate and no earlier element does; null means no element does |
| IntrusiveList.Remove | test1.cpp:110-121 | the element is cut out: elements before it stay, later ones shift down by one, and the multiset loses exactly that element |
| IntrusiveList.RemoveDistinct | test1.cpp:110-121 | on a list without repeats, removal keeps it repeat-free, removes the element and keeps every other element |
| IntrusiveList.RemoveInsertBefore | test1.cpp:90-121 | inserting an absent element anywhere and removing it gives the list back |
| IntrusiveList.RemovePushBack | test1.cpp:73-121 | appending an absent element and removing it gives the list back |
| PriceLevel.NewLevel | test1.cpp:134-135 | a new level is empty and its zero count and size agree with its queue |
| PriceLevel.Insert | test1.cpp:137-141 | the order joins the tail of the queue; on a consistent level, count goes up by one and size by the order's signed size, and the level stays consistent |
| PriceLevel.Remove | test1.cpp:143-147 | the order leaves the queue; on a consistent level, count goes down by one and size by the order's size, and the level stays consistent |
| PriceLevel.EmptyIffNoOrders | test1.cpp:149-151 | on a consistent level, `empty()` holds exactly when the count is zero, and then the size is zero |
| PriceLevel.RemoveInsert | test1.cpp:137-147 | `remove` after `insert` of an order not queued gives the level back exactly: queue, count and size |
| PriceLevel.SumResize | test1.cpp:230-231 | resizing one queued order moves the level's total by the difference of the sizes |
| LevelsIndex.NewIndex | test1.cpp:155-158 | a new side index is valid, has no levels and a null best |
| LevelsIndex.Size | test1.cpp:191-193 | on a valid index, the table size equals the length of the priority list |
| LevelsIndex.Link | test1.cpp:177-185 | the miss path files a new empty level under the price in the table |
| LevelsIndex.AnchorSplits | test1.cpp:180-181 | the anchor `find_first` picks splits a sorted side: levels before it are strictly better than the new price, the anchor and after are strictly worse |
| LevelsIndex.LinkValid | test1.cpp:177-185 | linking a new price keeps the list strictly sorted by priority; the table and the list still hold the same prices; best is still the head; the depth grows by one |
| LevelsIndex.LinkNewBest | test1.cpp:180-184 | a price strictly better than every level is linked at the head and becomes best |
| LevelsIndex.Locate | test1.cpp:175-189 | `operator[]`: a hit returns the filed level and changes nothing; a miss adds exactly that price with an empty level, keeps the index valid and grows the depth by one |
| LevelsIndex.Update | test1.cpp:223 | writing through a level pointer replaces that level only and keeps the list and best |
| LevelsIndex.Remove | test1.cpp:166-173 | the price leaves the table and the list; the index stays valid with depth one less; best is unchanged unless it was the removed level, in which case it moves to the next level, or null |
| LevelsIndex.At | test1.cpp:195-203 | `at(i)` is the level at position `i` from best, and exactly `i` filed prices are strictly better than its price |
| LevelsIndex.UpdateAt | test1.cpp:195-203 | after a write through a level pointer, `at(i)` is the written level when it was that price and the old level otherwise; the depth stays |
| LevelsIndex.BestIsMostFavourable | test1.cpp:183-184 | best is null exactly when the side is empty; otherwise it is `at(0)` and strictly better than every other filed price |
| LevelsIndex.RemoveBestPromotesSecond | test1.cpp:169-171 | removing the top level makes the old second level `at(0)` |
| LevelsIndex.RemoveLink | test1.cpp:166-189 | linking a new price and removing it again gives the index back exactly, best included |
| OrderBook.NewBook | test1.cpp:212-215 | a new book is valid, with no ids, `capacity` free slots and both sides empty |
| OrderBook.ById | test1.cpp:279-283 | a known id yields its registered slot (`itr->second`), a live slot whose record carries that id |
| OrderBook.PopById | test1.cpp:284-289 | the id is unregistered and its registered slot returned, a slot whose record carries the id and that no remaining id uses |
| OrderBook.PutLevel | test1.cpp:221-223 | a write through the `Level*` that `byOrder` returned (`lvl->insert`, and likewise `size +=` at 230 and `lvl->remove` at 244): on the order's side only the level filed under its price is replaced, so the priority list and best stay; the other side, the id table and the pool are unchanged |
| OrderBook.ByOrder | test1.cpp:291-296 | yields the level of the order's price on the side of its sign, created if missing; the book changes only when it was missing, and only on that side |
| OrderBook.ByLevel | test1.cpp:298-300 | yields level `level` from the top of the side given by the sign, a well-formed non-empty level |
| OrderBook.NewOrder | test1.cpp:218-225 | registers the fresh id, keeps every other registration, stores `Order(id, toSide(side) * size, price)` and queues it last in its level; the other side is unchanged |
| OrderBook.NewOrderValid | test1.cpp:218-225 | `newOrder` keeps the book invariant |
| OrderBook.NewOrderNewBest | test1.cpp:218-225 | an order priced strictly better than every level of its side opens a new top level holding only that order |
| OrderBook.DeleteOrder | test1.cpp:241-252 | unregisters the id, pushes its slot on the free list and leaves the other side unchanged |
| OrderBook.DeleteOrderValid | test1.cpp:241-252 | `deleteOrder` keeps the book invariant: the order leaves its level, and a level left empty is unlinked |
| OrderBook.DeleteRegistered | test1.cpp:241-252 | after a delete, every remaining order is still queued at its price on its side |
| OrderBook.DeleteTopPromotesSecond | test1.cpp:241-252 | deleting the only order of the top level lowers the depth by one and makes the old second price `getLevelPrice(side, 0)` |
| OrderBook.NewThenDeleteRestores | test1.cpp:218-252 | `deleteOrder` after `newOrder` gives back the id table and both sides exactly, every level's queue, count and size included |
| OrderBook.ChangeOrder | test1.cpp:228-232 | the order keeps its slot, level and queue place and gets the new size; its level's size moves by `newSize - oldSize`; ids, free list, other records, other levels, priority list, best and the other side are unchanged |
| OrderBook.ChangeOrderValid | test1.cpp:228-232 | a size of the same sign keeps the book invariant |
| OrderBook.ChangeKeepsLevels | test1.cpp:228-232 | after `changeOrder` every side keeps its depth, and every level its price and order count |
| OrderBook.ChangeLevelSize | test1.cpp:228-232 | after `changeOrder` the order's level reports its size moved by `newSize - oldSize`; every other level reports what it did |
| OrderBook.SignedQuantity | test1.cpp:219 | a positive quantity gets the sign of the order's side, as `newOrder` applies `toSide` |
| OrderBook.ChangeQuantity | test1.cpp:228-232 | changing to a positive quantity, signed by side, keeps the order's side and the book invariant, and moves its level's size by the difference |
| OrderBook.ReplaceOrder | test1.cpp:235-238 | `deleteOrder(oldId)` then `newOrder(newId, ...)`: the result is valid; ids are the old ones minus `oldId` plus `newId`; every other id keeps its slot; `newId` holds the new record |
| OrderBook.LevelsAreRestingPrices | test1.cpp:291-296 | the levels of a side are exactly the prices its registered orders rest at |
| OrderBook.GetNumLevels | test1.cpp:255-261 | the depth of a side is the number of distinct prices its registered orders rest at |
| OrderBook.GetLevelPrice | test1.cpp:263-265 | the price of level `level` is a resting price of that side, and exactly `level` resting prices of the side are strictly better |
| OrderBook.SumSign | test1.cpp:268-271 | a level of buys has a non-negative total, positive when it holds an order; a level of sells has a non-positive one |
| OrderBook.GetLevelSize | test1.cpp:268-271 | the reported size is the sum of the level's order sizes, with the sell sign dropped, and is never negative |
| OrderBook.Abs | test1.cpp:270 | `std::abs`: never negative, and equal to the argument or to its negation |
| OrderBook.GetLevelOrderCount | test1.cpp:274-276 | the count is the positive queue length, and the queue holds exactly the registered orders of that side and price |
| OrderBook.LevelMembers | test1.cpp:274-276 | a registered order is queued in a level exactly when its side and price are the level's |
| Scenarios.BuySession | test1.cpp:218-265 | buys of 100 at 10.00 and 50 at 10.50: depth 2, top price 10.50 with 50 resting; after deleting the 10.50 order, depth 1 with top 10.00 |
| Scenarios.SellSession | test1.cpp:218-276 | a sell of 30 at 9.00 changed to quantity 80 with `ChangeQuantity`, the corrected `changeOrder`: one level, at 9.00, reporting 80 in one order |
| Scenarios.DefaultBookFirstSlot | test1.cpp:212-214 | a book of the default capacity 1024 hands its first order slot 1023, the last one the constructor pushed |
| Scenarios.ChangeFlipsSellOrder | test1.cpp:228-232 | `changeOrder(3, 80)` on a sell of 30 at 9.00 makes the record read as a buy while it stays queued on the sell side; the buy side has no 9.00 level, and the book invariant fails; the sell side still holds its one 9.00 level, whose size reads 80 without its sign and whose count is 1, so only a later delete goes wrong |
| LiteralList.PushBack | test1.cpp:73-82 | as written: on an empty list the item becomes head and tail and no link is written; otherwise the old tail's `next` becomes the item, the item's `prev` becomes the old tail, the item becomes the tail, and every other `next` and `prev` stays |
| LiteralList.PushFront | test1.cpp:84-89 | as written: the item's `next` is the old head and it becomes the head; an empty list's tail becomes the item, a non-empty list keeps its tail; no `prev` and no other `next` changes |
| LiteralList.InsertBefore | test1.cpp:90-99 | as written: a null anchor is `push_back` and an anchor without `prev` is `push_front`; otherwise the predecessor's `next` becomes the item and the item's `next` becomes the anchor's successor, not the anchor; head, tail, every `prev` and every other `next` stay |
| LiteralList.Remove | test1.cpp:110-121 | as written: with a predecessor, its `next` becomes the item's successor, every other `next` stays, and the tail falls back to it when the item was last; without one, head moves to the successor and the tail is cleared when there is none; no `prev` changes |
| LiteralList.FindFirst | test1.cpp:101-108 | as written: the first node on the walk from the start that satisfies the predicate, null when no node of the walk does; this is the sequence `find_first` applied to the walk |
| LiteralList.Link | test1.cpp:177-185 | as written: the price is filed and spliced by `insert_before` before the first node on the walk from the head that is not strictly better; best becomes the price when there was none or the price is strictly better, and stays otherwise |
| LiteralList.At | test1.cpp:195-203 | as written: the node `index` hops along `next` from the start, which is position `index` of the walk, or null when the walk ends sooner |
| LiteralList.LostLevel | test1.cpp:90-99 | buys at 12, 10 and 11: three levels are filed, but the list walk meets only 12 and 11, and `at(2)` is null |
| LiteralList.MisorderedLevels | test1.cpp:84-99 | buys at 10, 12 and 11: the list reads 11, 12, 10, and `at(1)` is 10 while 11 is the second-best price |
| LiteralList.StuckLevel | test1.cpp:110-123 | a queue with orders 1 and 2 that removes 1 then 2 still has a head, so `empty()` is false |

## Left out

- `main` is not modelled: reading commands from a file, printing results and the process exit code. The operations it calls are modelled.
- Prices are integer ticks rather than `double`. Rounding of decimal input, and hashing of doubles in `unordered_map`, are not modelled.
- Integers are unbounded. The 32-bit `int` overflow of ids, sizes, `toSide(side) * size`, a level's running size or count, and `std::abs(INT_MIN)` is not modelled.
- Arena.Insert: slot handles are indices. So the model does not show that `m_data.push_back`, once the preallocated capacity is used up, can reallocate and leave every `Order*` held in the id table and the queues dangling.
- OrderBook.PopById: returns the slot. The source reads the iterator after `erase`, which is undefined behaviour.
- The source's fatal assertions are preconditions, not error results: an unknown side character (`toSide`), an unknown id (`byId`, `popById`) and a level index at or past the depth (`at`). With `NDEBUG` an unknown id or an index at or past the depth is undefined behaviour. An unknown side character is not: `toSide` returns 0 (test1.cpp:44-45), so `newOrder` stores size 0 and the order rests on the sell side, `getNumLevels` returns 0 and `byLevel` reads the sell side. That defined behaviour is not modelled.
- OrderBook.NewOrder: requires an id that is not registered. With a duplicate id the source queues the new order but `emplace` keeps the old table entry, so the new order can never be reached by id.
- Every book operation and query except `newOrder` requires `OrderBook.Valid`. Books outside the invariant arise only from `changeOrder` with a new size whose `isBuy` differs from the old one (a size of the other sign, or a buy changed to size 0). For one such book, `Scenarios.ChangeFlipsSellOrder` states the fields of the sell side's level. For these books the model states neither the query results nor what later operations do.
- OrderBook.ChangeOrderValid: requires a new size of the same sign as the old one. OrderBook.ChangeKeepsLevels and OrderBook.ChangeLevelSize require it too, because the queries need a valid book. See Findings for what happens otherwise.
- Only `OrderBook.ChangeOrder` itself accepts any size.
- The book is modelled on the intended list behaviour (`IntrusiveList`). A whole book built on the literal pointer lists is not modelled. `LiteralList` models the list operations and the miss path of `operator[]` as written, and shows the defects by concrete sessions.
- LiteralList.FindFirst: walks at most `fuel` nodes (8 in the sessions), because the pointer walk need not end on a corrupted list. A walk that runs out of fuel reports no match.
- LiteralList.Link: models only the miss path of `operator[]`. The hit path does not touch the list.
- LiteralList.At: returns null when the walk reaches null before its last hop, where the source fails `assert(result!=nullptr)`. It also does not check `assert(index<size())`, because it is given the links and not the table.

## Findings

| source | as written | input that shows it | evidently intended | confidence | as-written member | corrected member |
|---|---|---|---|---|---|---|
| test1.cpp:96-97 | `insert_before` past the head sets `item->next = node->next`, so the anchor and all later levels fall off the price list; it also never sets `item->prev` or `node->prev` | buys at 12.00, 10.00, then 11.00 | `item->next = node`, `item->prev = node->prev`, `node->prev = item` | high; not executed | LiteralList.InsertBefore, LiteralList.LostLevel | IntrusiveList.InsertBefore, LevelsIndex.LinkValid |
| test1.cpp:84-89 | `push_front` never sets the old head's `prev`, so a later `insert_before` on that level takes the head path again and the list loses its price order | buys at 10.00, 12.00, then 11.00: `getLevelPrice('b', 1)` gives 10.00 | `if (head) head->prev = item;` before moving `head` | high; not executed | LiteralList.PushFront, LiteralList.MisorderedLevels | IntrusiveList.PushFront, LevelsIndex.LinkValid |
| test1.cpp:110-121 | `remove` never updates `item->next->prev`, so a node that became head keeps a stale `prev`; removing it then leaves `head` on the removed node, and `deleteOrder` never unlinks the emptied level | two orders at one price, deleted in arrival order | `if (item->next) item->next->prev = item->prev;` | high; not executed | LiteralList.Remove, LiteralList.StuckLevel | IntrusiveList.Remove, PriceLevel.EmptyIffNoOrders |
| test1.cpp:228-232 | `changeOrder` stores `newSize` as given. The driver (test1.cpp:337) passes the unsigned quantity it reads, so a sell order turns into a buy while it stays queued on the sell side | `newOrder(3,'s',30,9.00)`, `changeOrder(3,80)`; a later `deleteOrder(3)` looks on the buy side | store the quantity with the order's side sign, as `newOrder` does with `toSide` | medium; not executed | OrderBook.ChangeOrder, Scenarios.ChangeFlipsSellOrder | OrderBook.ChangeQuantity |

=== FILE: arena.dfy ===
/**
  The slot pool `arena<T>`: a vector of records plus a stack of free slots.
  A slot index stands for the `T*` the pool hands out; modelling handles as
  indices also sidesteps the pointer invalidation that growing a vector causes.
*/
module Arena {

  /** `data` is the backing vector; `free` is the free-list stack, whose top is its last element. */
  datatype Pool<T> = Pool(data: seq<T>, free: seq<nat>)

  /** Every free slot addresses storage, and no slot is on the free list twice. */
  ghost predicate Valid<T>(p: Pool<T>) {
    && (forall k :: 0 <= k < |p.free| ==> p.free[k] < |p.data|)
    && (forall k, m :: 0 <= k < m < |p.free| ==> p.free[k] != p.free[m])
  }

  /** Slots `0 .. n-1` in index order, the order in which the constructor pushes them. */
  function Slots(n: nat): (s: seq<nat>)
    ensures |s| == n
    ensures forall k :: 0 <= k < n ==> s[k] == k
  {
    if n == 0 then [] else Slots(n - 1) + [n - 1]
  }

  /**
    The constructor: `size` records, every one of whose slots is pushed on the
    free list, so that the first allocation takes the highest slot.
    The records' contents are whatever the default constructor leaves: `filler`.
  */
  function NewPool<T>(size: nat, filler: T): (p: Pool<T>)
    ensures Valid(p)
    ensures |p.data| == size && |p.free| == size
    ensures forall slot: nat :: slot < size ==> slot in p.free
    ensures size > 0 ==> p.free[size - 1] == size - 1
    ensures forall k :: 0 <= k < size ==> p.free[k] == k
  {
    var free := Slots(size);
    forall slot: nat | slot < size
      ensures slot in free
    {
      assert free[slot] == slot;
    }
    Pool(seq(size, _ => filler), free)
  }

  /**
    `insert`: pop the most recently freed slot and overwrite it with `item`,
    or, when nothing is free, append a new slot holding `item`.
    No other slot changes.
  */
  function Insert<T>(p: Pool<T>, item: T): (r: (Pool<T>, nat))
    requires Valid(p)
    ensures Valid(r.0)
    ensures r.1 < |r.0.data| && r.0.data[r.1] == item && r.1 !in r.0.free
    ensures forall s :: 0 <= s < |p.data| && s != r.1 ==> s < |r.0.data| && r.0.data[s] == p.data[s]
    ensures |p.free| > 0 ==> r.1 == p.free[|p.free| - 1] && r.0.free == p.free[..|p.free| - 1] && |r.0.data| == |p.data|
    ensures |p.free| == 0 ==> r.1 == |p.data| && |r.0.data| == |p.data| + 1 && r.0.free == []
  {
    if |p.free| > 0 then
      var slot := p.free[|p.free| - 1];
      (Pool(p.data[slot := item], p.free[..|p.free| - 1]), slot)
    else
      (Pool(p.data + [item], []), |p.data|)
  }

  /**
    `remove`: push `slot` back on the free list. Storage is untouched: the
    record stays readable, stale, until the slot is reused.
  */
  function Remove<T>(p: Pool<T>, slot: nat): (r: Pool<T>)
    requires Valid(p) && slot < |p.data|
    ensures r.data == p.data
    ensures |r.free| == |p.free| + 1 && r.free[|p.free|] == slot && r.free[..|p.free|] == p.free
    ensures slot !in p.free ==> Valid(r)
  {
    Pool(p.data, p.free + [slot])
  }

  /** An assignment through a slot handed out by `insert` (`ord->size = newSize`). */
  function Write<T>(p: Pool<T>, slot: nat, item: T): (r: Pool<T>)
    requires slot < |p.data|
    ensures r.free == p.free && |r.data| == |p.data| && r.data[slot] == item
    ensures forall s :: 0 <= s < |p.data| && s != slot ==> r.data[s] == p.data[s]
    ensures Valid(p) ==> Valid(r)
  {
    Pool(p.data[slot := item], p.free)
  }

  /** Free-list reuse is last-in-first-out: the slot just released is the next one handed out. */
  lemma RemoveThenInsert<T>(p: Pool<T>, slot: nat, item: T)
    requires Valid(p) && slot < |p.data| && slot !in p.free
    ensures Insert(Remove(p, slot), item) == (Pool(p.data[slot := item], p.free), slot)
  {
    var q := Remove(p, slot);
    assert q.free[..|q.free| - 1] == p.free;
  }

  /** Releasing the slot just handed out gives the free list back exactly. */
  lemma InsertThenRemove<T>(p: Pool<T>, item: T)
    requires Valid(p)
    ensures var (q, slot) := Insert(p, item);
      Remove(q, slot).free == if |p.free| > 0 then p.free else [|p.data|]
  {
    var (q, slot) := Insert(p, item);
    if |p.free| > 0 {
      assert p.free == p.free[..|p.free| - 1] + [p.free[|p.free| - 1]];
    }
  }

}

=== FILE: level.dfy ===
/**
  A price level (`Level`): the FIFO queue of the orders resting at one price
  on one side, with a running order count and a running signed size.
  The queue holds pool slots, which stand for the source's `Order*`; the
  orders themselves are read from the pool's storage `data`.
*/
module PriceLevel {

  import opened Orders
  import IntrusiveList

  datatype Level = Level(price: int, count: int, size: int, queue: seq<nat>)

  /** Every queued slot addresses the pool's storage. */
  ghost predicate InPool(q: seq<nat>, data: seq<Order>) {
    forall k :: 0 <= k < |q| ==> q[k] < |data|
  }

  /** The signed sizes of the queued orders, added up. */
  function SumSizes(q: seq<nat>, data: seq<Order>): int
    requires InPool(q, data)
  {
    if |q| == 0 then 0 else data[q[0]].size + SumSizes(q[1..], data)
  }

  /** The level's aggregates agree with its queue: `count` is its length, `size` the sum of its orders. */
  ghost predicate Consistent(l: Level, data: seq<Order>) {
    && InPool(l.queue, data)
    && l.count == |l.queue|
    && l.size == SumSizes(l.queue, data)
  }

  /** `empty`: the queue's head is null. */
  predicate Empty(l: Level) {
    IntrusiveList.Empty(l.queue)
  }

  /** The constructor: an empty level at `price`, consistent with any storage. */
  function NewLevel(price: int): (l: Level)
    ensures l.price == price && Empty(l)
    ensures forall data :: Consistent(l, data)
  {
    Level(price, 0, 0, [])
  }

  /**
    `insert`: the order at `slot` joins the tail of the queue, the count goes
    up by one and the aggregate by the order's signed size; the level stays
    consistent.
  */
  function Insert(l: Level, slot: nat, data: seq<Order>): (r: Level)
    requires slot < |data|
    ensures r.price == l.price
    ensures r.queue == IntrusiveList.PushBack(l.queue, slot)
    ensures Consistent(l, data) ==> Consistent(r, data) && r.count == l.count + 1 && r.size == l.size + data[slot].size
  {
    SumAppend(l.queue, slot, data);
    Level(l.price, l.count + 1, l.size + data[slot].size, IntrusiveList.PushBack(l.queue, slot))
  }

  /**
    `remove`: the order at `slot` leaves the queue, the count goes down by one
    and the aggregate by the order's signed size; the level stays consistent.
  */
  function Remove(l: Level, slot: nat, data: seq<Order>): (r: Level)
    requires slot in l.queue && slot < |data|
    ensures r.price == l.price
    ensures r.queue == IntrusiveList.Remove(l.queue, slot)
    ensures Consistent(l, data) ==> Consistent(r, data) && r.count == l.count - 1 && r.size == l.size - data[slot].size
  {
    SumRemove(l.queue, slot, data);
    Level(l.price, l.count - 1, l.size - data[slot].size, IntrusiveList.Remove(l.queue, slot))
  }

  /** On a consistent level, an empty queue, a zero count and no orders are the same thing. */
  lemma EmptyIffNoOrders(l: Level, data: seq<Order>)
    requires Consistent(l, data)
    ensures Empty(l) <==> l.count == 0
    ensures Empty(l) ==> l.size == 0
  {
  }

  /** `remove` undoes `insert` exactly: queue, count and aggregate all come back. */
  lemma RemoveInsert(l: Level, slot: nat, data: seq<Order>)
    requires slot < |data| && slot !in l.queue
    ensures slot in Insert(l, slot, data).queue
    ensures Remove(Insert(l, slot, data), slot, data) == l
  {
    IntrusiveList.RemovePushBack(l.queue, slot);
  }

  /** Appending a slot adds its order's size. */
  lemma {:induction false} SumAppend(q: seq<nat>, slot: nat, data: seq<Order>)
    requires slot < |data|
    ensures InPool(q, data) ==> InPool(q + [slot], data) && SumSizes(q + [slot], data) == SumSizes(q, data) + data[slot].size
  {
    if InPool(q, data) && |q| > 0 {
      assert (q + [slot])[1..] == q[1..] + [slot];
      SumAppend(q[1..], slot, data);
    }
  }

  /** The sum of a concatenation is the sum of the parts. */
  lemma {:induction false} SumConcat(a: seq<nat>, b: seq<nat>, data: seq<Order>)
    requires InPool(a, data) && InPool(b, data)
    ensures InPool(a + b, data) && SumSizes(a + b, data) == SumSizes(a, data) + SumSizes(b, data)
  {
    if |a| > 0 {
      assert (a + b)[1..] == a[1..] + b;
      SumConcat(a[1..], b, data);
    } else {
      assert a + b == b;
    }
  }

  /** Removing a queued slot subtracts its order's size. */
  lemma SumRemove(q: seq<nat>, slot: nat, data: seq<Order>)
    requires slot in q && slot < |data|
    ensures InPool(q, data) ==> InPool(IntrusiveList.Remove(q, slot), data)
    ensures InPool(q, data) ==> SumSizes(IntrusiveList.Remove(q, slot), data) == SumSizes(q, data) - data[slot].size
  {
    if InPool(q, data) {
      var i := IntrusiveList.IndexOf(q, slot);
      assert q == q[..i] + ([slot] + q[i + 1..]);
      assert IntrusiveList.Remove(q, slot) == q[..i] + q[i + 1..];
      SumConcat(q[..i], [slot] + q[i + 1..], data);
      SumConcat(q[..i], q[i + 1..], data);
      assert ([slot] + q[i + 1..])[1..] == q[i + 1..];
    }
  }

  /** The sum reads only the queued slots: storage that agrees on them gives the same sum. */
  lemma {:induction false} SumFrame(q: seq<nat>, data: seq<Order>, data': seq<Order>)
    requires InPool(q, data) && InPool(q, data')
    requires forall k :: 0 <= k < |q| ==> data'[q[k]].size == data[q[k]].size
    ensures SumSizes(q, data') == SumSizes(q, data)
  {
    if |q| > 0 {
      SumFrame(q[1..], data, data');
    }
  }

  /** Resizing the order at a slot queued once changes the sum by the difference. */
  lemma {:induction false} SumResize(q: seq<nat>, slot: nat, data: seq<Order>, o: Order)
    requires InPool(q, data) && slot < |data|
    requires IntrusiveList.Distinct(q) && slot in q
    ensures InPool(q, data[slot := o])
    ensures SumSizes(q, data[slot := o]) == SumSizes(q, data) + o.size - data[slot].size
  {
    var data' := data[slot := o];
    assert InPool(q, data');
    if q[0] == slot {
      assert slot !in q[1..];
      SumFrame(q[1..], data, data');
    } else {
      assert IntrusiveList.Distinct(q[1..]);
      SumResize(q[1..], slot, data, o);
    }
  }

}

=== FILE: levels_index.dfy ===
/**
  The side index `LevelsIndex<Side>`: a price -> level table, the levels'
  priority-ordered list (of their prices) and the cached best level.
  The template argument is the side: buys (+1) rank higher prices first,
  sells (-1) lower prices first.
*/
module LevelsIndex {

  import opened Options
  import IntrusiveList
  import opened PriceLevel

  datatype Side = Buy | Sell

  /** The template argument `Side`: +1 for the buy index, -1 for the sell index. */
  function Dir(side: Side): int {
    if side == Buy then 1 else -1
  }

  /** Price `a` has strictly higher priority than price `b` on `side`. */
  predicate Better(side: Side, a: int, b: int) {
    if side == Buy then a > b else a < b
  }

  /** The source's test `Side*(a-b) > 0` is exactly strict priority. */
  lemma DirBetter(side: Side, a: int, b: int)
    ensures Dir(side) * (a - b) > 0 <==> Better(side, a, b)
    ensures Dir(side) * (a - b) <= 0 <==> !Better(side, a, b)
  {
  }

  /** `ht` is the price -> level table, `lst` the level list (by price), `best` the price of `best`. */
  datatype Index = Index(side: Side, ht: map<int, Level>, lst: seq<int>, best: Option<int>)

  /** Strictly decreasing priority from head to tail. */
  ghost predicate Sorted(side: Side, lst: seq<int>) {
    forall i, j :: 0 <= i < j < |lst| ==> Better(side, lst[i], lst[j])
  }

  /**
    The index invariant: table and list hold the same levels, each filed under
    its own price; the list is in strict priority order; `best` is null exactly
    when there are no levels and is otherwise the head of the list.
  */
  ghost predicate Valid(ix: Index) {
    && (forall p :: p in ix.ht <==> p in ix.lst)
    && (forall p :: p in ix.ht ==> ix.ht[p].price == p)
    && Sorted(ix.side, ix.lst)
    && |ix.ht| == |ix.lst|
    && (ix.best.None? <==> |ix.lst| == 0)
    && (ix.best.Some? ==> ix.best.value == ix.lst[0])
  }

  /** The constructor: no levels, `best` null. */
  function NewIndex(side: Side): (ix: Index)
    ensures Valid(ix) && ix.side == side && Size(ix) == 0 && ix.best.None?
  {
    Index(side, map[], [], None)
  }

  /** `size`: the number of levels in the table, which is the depth of the side. */
  function Size(ix: Index): (n: nat)
    ensures Valid(ix) ==> n == |ix.lst|
  {
    |ix.ht|
  }

  /**
    The miss path of `operator[]`: file a new empty level under `price`, link
    it before the first level that is not strictly better (at the tail if
    there is none), and make it `best` when there was none or it is strictly
    better than `best`.
  */
  function Link(ix: Index, price: int): (r: Index)
    ensures r.side == ix.side && r.ht == ix.ht[price := NewLevel(price)]
  {
    var node := IntrusiveList.FindFirst(ix.lst, n => Dir(ix.side) * (n - price) <= 0);
    var lst := IntrusiveList.InsertBefore(ix.lst, node, price);
    var best := if ix.best.None? || Dir(ix.side) * (price - ix.best.value) > 0 then Some(price) else ix.best;
    Index(ix.side, ix.ht[price := NewLevel(price)], lst, best)
  }

  /** The levels strictly better than `price` are exactly those ahead of the anchor `find_first` picks. */
  lemma AnchorSplits(side: Side, s: seq<int>, price: int)
    requires Sorted(side, s) && price !in s
    ensures var node := IntrusiveList.FindFirst(s, n => Dir(side) * (n - price) <= 0);
      var at := if node.None? then |s| else node.value;
      && (forall k :: 0 <= k < at ==> Better(side, s[k], price))
      && (forall k :: at <= k < |s| ==> Better(side, price, s[k]))
  {
    var pred := n => Dir(side) * (n - price) <= 0;
    var node := IntrusiveList.FindFirst(s, pred);
    var at := if node.None? then |s| else node.value;
    forall k | 0 <= k < at
      ensures Better(side, s[k], price)
    {
      assert !pred(s[k]);
    }
    forall k | at <= k < |s|
      ensures Better(side, price, s[k])
    {
      assert pred(s[at]) && s[at] != price;
    }
  }

  /** Splicing a price in between the better and the worse levels keeps the list strictly ordered. */
  lemma InsertSorted(side: Side, s: seq<int>, node: Option<nat>, price: int)
    requires Sorted(side, s)
    requires node.Some? ==> node.value < |s|
    requires var at := if node.None? then |s| else node.value;
      && (forall k :: 0 <= k < at ==> Better(side, s[k], price))
      && (forall k :: at <= k < |s| ==> Better(side, price, s[k]))
    ensures Sorted(side, IntrusiveList.InsertBefore(s, node, price))
    ensures forall p :: p in IntrusiveList.InsertBefore(s, node, price) <==> p in s || p == price
  {
    var lst := IntrusiveList.InsertBefore(s, node, price);
    var at := if node.None? then |s| else node.value;
    forall i, j | 0 <= i < j < |lst|
      ensures Better(side, lst[i], lst[j])
    {
      if i == at {
        assert lst[j] == s[j - 1];
      } else if j == at {
        assert lst[i] == s[i];
      } else {
        var i' := if i < at then i else i - 1;
        var j' := if j < at then j else j - 1;
        assert lst[i] == s[i'] && lst[j] == s[j'];
      }
    }
    IntrusiveList.InsertBeforeMembers(s, node, price);
  }

  /**
    Linking a new price keeps the index valid, adds one level, and puts the
    new level between the levels better than it and those worse than it.
  */
  lemma LinkValid(ix: Index, price: int)
    requires Valid(ix) && price !in ix.ht
    ensures Valid(Link(ix, price))
    ensures Size(Link(ix, price)) == Size(ix) + 1
    ensures forall p :: p in Link(ix, price).lst <==> p in ix.lst || p == price
  {
    var side := ix.side;
    var node := IntrusiveList.FindFirst(ix.lst, n => Dir(side) * (n - price) <= 0);
    var r := Link(ix, price);
    assert r.lst == IntrusiveList.InsertBefore(ix.lst, node, price);
    var at := if node.None? then |ix.lst| else node.value;
    assert price !in ix.lst;
    AnchorSplits(side, ix.lst, price);
    InsertSorted(side, ix.lst, node, price);
    assert |r.ht| == |ix.ht| + 1;
    // The cached best moves to the new level exactly when it lands at the head.
    if ix.best.Some? {
      DirBetter(side, price, ix.best.value);
      if Better(side, price, ix.best.value) {
        assert at == 0;
      } else {
        assert at > 0;
      }
    }
    assert forall p :: p in r.ht <==> p in r.lst;
  }

  /** A price strictly better than every level on the side is linked at the head and becomes `best`. */
  lemma LinkNewBest(ix: Index, price: int)
    requires Valid(ix) && price !in ix.ht
    requires forall p :: p in ix.ht ==> Better(ix.side, price, p)
    ensures Link(ix, price).lst == [price] + ix.lst
    ensures Link(ix, price).best == Some(price)
  {
    var side := ix.side;
    var node := IntrusiveList.FindFirst(ix.lst, n => Dir(side) * (n - price) <= 0);
    assert price !in ix.lst;
    AnchorSplits(side, ix.lst, price);
    if |ix.lst| > 0 {
      assert ix.lst[0] in ix.ht;
      assert Better(side, price, ix.lst[0]);
      assert node == Some(0);
      DirBetter(side, price, ix.best.value);
    }
  }

  /** `LinkValid` in the form a function body can call unconditionally. */
  lemma LinkKeepsValid(ix: Index, price: int)
    requires price !in ix.ht
    ensures Valid(ix) ==> Valid(Link(ix, price)) && Size(Link(ix, price)) == Size(ix) + 1
    ensures Valid(ix) ==> forall p :: p in Link(ix, price).lst <==> p in ix.lst || p == price
  {
    if Valid(ix) {
      LinkValid(ix, price);
    }
  }

  /**
    `operator[]`: the level filed under `price`. A hit returns it and changes
    nothing; a miss files, links and returns a new empty level, keeping the
    index valid with one more level.
  */
  function Locate(ix: Index, price: int): (r: (Index, Level))
    ensures price in r.0.ht && r.1 == r.0.ht[price] && r.0.side == ix.side
    ensures price in ix.ht ==> r.0 == ix
    ensures price !in ix.ht ==> r.1 == NewLevel(price) && r.0.ht == ix.ht[price := r.1]
    ensures Valid(ix) ==> Valid(r.0)
    ensures Valid(ix) && price !in ix.ht ==> Size(r.0) == Size(ix) + 1
    ensures Valid(ix) ==> forall p :: p in r.0.ht <==> p in ix.ht || p == price
  {
    if price in ix.ht then
      (ix, ix.ht[price])
    else
      var r := Link(ix, price);
      LinkKeepsValid(ix, price);
      (r, r.ht[price])
  }

  /** Writing through the level pointer: the level filed under `price` is replaced. */
  function Update(ix: Index, price: int, l: Level): (r: Index)
    requires price in ix.ht
    ensures r.side == ix.side && r.lst == ix.lst && r.best == ix.best
    ensures r.ht.Keys == ix.ht.Keys && r.ht[price] == l
    ensures forall p :: p in ix.ht && p != price ==> r.ht[p] == ix.ht[p]
    ensures Valid(ix) && l.price == price ==> Valid(r)
  {
    ix.(ht := ix.ht[price := l])
  }

  /**
    `remove`: erase the level filed under `price` from the table and unlink it;
    if it was `best`, `best` moves to its successor. The index stays valid
    with one level fewer.
  */
  function Remove(ix: Index, price: int): (r: Index)
    requires price in ix.ht && price in ix.lst
    ensures r.side == ix.side && r.ht == ix.ht - {price}
    ensures r.lst == IntrusiveList.Remove(ix.lst, price)
    ensures Valid(ix) ==> Valid(r) && Size(r) == Size(ix) - 1
    ensures Valid(ix) && ix.best != Some(price) ==> r.best == ix.best
    ensures Valid(ix) && ix.best == Some(price) ==> if |ix.lst| > 1 then r.best == Some(ix.lst[1]) else r.best.None?
  {
    var i := IntrusiveList.IndexOf(ix.lst, price);
    var lst := IntrusiveList.Remove(ix.lst, price);
    var best := if ix.best == Some(price) then (if i + 1 < |ix.lst| then Some(ix.lst[i + 1]) else None) else ix.best;
    var r := Index(ix.side, ix.ht - {price}, lst, best);
    RemoveValid(ix, price);
    r
  }

  /** A strictly ordered list holds each price once. */
  lemma SortedDistinct(side: Side, s: seq<int>)
    requires Sorted(side, s)
    ensures IntrusiveList.Distinct(s)
  {
    forall a, b | 0 <= a < b < |s|
      ensures s[a] != s[b]
    {
      assert Better(side, s[a], s[b]);
    }
  }

  /** Unlinking a level keeps the rest strictly ordered. */
  lemma RemoveSorted(side: Side, s: seq<int>, price: int)
    requires Sorted(side, s) && price in s
    ensures Sorted(side, IntrusiveList.Remove(s, price))
    ensures forall p :: p in IntrusiveList.Remove(s, price) <==> p in s && p != price
  {
    var i := IntrusiveList.IndexOf(s, price);
    var lst := IntrusiveList.Remove(s, price);
    SortedDistinct(side, s);
    IntrusiveList.RemoveDistinct(s, price);
    forall a, b | 0 <= a < b < |lst|
      ensures Better(side, lst[a], lst[b])
    {
      var a' := if a < i then a else a + 1;
      var b' := if b < i then b else b + 1;
      assert lst[a] == s[a'] && lst[b] == s[b'];
    }
  }

  /** Erasing a price from the table drops exactly one key. */
  lemma EraseSize(ht: map<int, Level>, price: int)
    requires price in ht
    ensures |ht - {price}| == |ht| - 1
  {
    assert (ht - {price}).Keys == ht.Keys - {price};
  }

  /** Filing a fresh key and erasing it again gives the table back. */
  lemma EraseFresh(ht: map<int, Level>, price: int, l: Level)
    requires price !in ht
    ensures ht[price := l] - {price} == ht
  {
    assert (ht[price := l] - {price}).Keys == ht.Keys;
  }

  /** The successor of the head of a list with the head removed. */
  lemma RemoveHead(s: seq<int>, price: int)
    requires price in s && IntrusiveList.IndexOf(s, price) != 0
    ensures IntrusiveList.Remove(s, price)[0] == s[0]
  {
  }

  lemma RemoveValid(ix: Index, price: int)
    requires price in ix.ht && price in ix.lst
    ensures Valid(ix) ==> Valid(Index(ix.side, ix.ht - {price}, IntrusiveList.Remove(ix.lst, price),
      if ix.best == Some(price) then (if IntrusiveList.IndexOf(ix.lst, price) + 1 < |ix.lst| then Some(ix.lst[IntrusiveList.IndexOf(ix.lst, price) + 1]) else None) else ix.best))
  {
    if Valid(ix) {
      var i := IntrusiveList.IndexOf(ix.lst, price);
      var lst := IntrusiveList.Remove(ix.lst, price);
      var ht := ix.ht - {price};
      var best := if ix.best == Some(price) then (if i + 1 < |ix.lst| then Some(ix.lst[i + 1]) else None) else ix.best;
      RemoveSorted(ix.side, ix.lst, price);
      EraseSize(ix.ht, price);
      assert forall p :: p in ht <==> p in lst;
      assert forall p :: p in ht ==> ht[p].price == p;
      if ix.best == Some(price) {
        assert i == 0;
      } else if |ix.lst| > 0 {
        RemoveHead(ix.lst, price);
      }
      assert Valid(Index(ix.side, ht, lst, best));
    }
  }

  /**
    `at`: the level `i` hops from `best`, so index 0 is the top of the book.
    It is the level with exactly `i` strictly better levels on its side.
  */
  function At(ix: Index, i: nat): (l: Level)
    requires Valid(ix) && i < Size(ix)
    ensures l == ix.ht[ix.lst[i]] && l.price == ix.lst[i]
    ensures |set p | p in ix.ht && Better(ix.side, p, l.price)| == i
  {
    var start := IntrusiveList.IndexOf(ix.lst, ix.best.value);
    AtRank(ix, i);
    ix.ht[ix.lst[start + i]]
  }

  /** A write through a level pointer leaves every level where it was and changes only the one it writes. */
  lemma UpdateAt(ix: Index, price: int, l: Level, i: nat)
    requires Valid(ix) && price in ix.ht && l.price == price && i < Size(ix)
    ensures Valid(Update(ix, price, l)) && Size(Update(ix, price, l)) == Size(ix)
    ensures At(Update(ix, price, l), i) == if At(ix, i).price == price then l else At(ix, i)
  {
    assert ix.lst[i] in ix.ht;
  }

  lemma AtRank(ix: Index, i: nat)
    requires Valid(ix) && i < |ix.lst|
    ensures IntrusiveList.IndexOf(ix.lst, ix.best.value) == 0
    ensures |set p | p in ix.ht && Better(ix.side, p, ix.lst[i])| == i
  {
    var side := ix.side;
    var ahead := ix.lst[..i];
    assert IntrusiveList.Distinct(ahead) by {
      forall a, b | 0 <= a < b < |ahead|
        ensures ahead[a] != ahead[b]
      {
        assert Better(side, ix.lst[a], ix.lst[b]);
      }
    }
    IntrusiveList.DistinctCard(ahead);
    forall p
      ensures p in ix.ht && Better(side, p, ix.lst[i]) <==> p in ahead
    {
      if p in ix.ht && Better(side, p, ix.lst[i]) {
        var m :| 0 <= m < |ix.lst| && ix.lst[m] == p;
        assert m < i;
        assert ahead[m] == p;
      }
      if p in ahead {
        var m :| 0 <= m < |ahead| && ahead[m] == p;
        assert ix.lst[m] == p;
      }
    }
    assert (set p | p in ix.ht && Better(side, p, ix.lst[i])) == (set p | p in ahead);
  }

  /** The cached best is null exactly when the side is empty, and otherwise beats every other level. */
  lemma BestIsMostFavourable(ix: Index)
    requires Valid(ix)
    ensures ix.best.None? <==> Size(ix) == 0
    ensures ix.best.Some? ==> ix.best.value in ix.ht && At(ix, 0).price == ix.best.value
    ensures ix.best.Some? ==> forall p :: p in ix.ht && p != ix.best.value ==> Better(ix.side, ix.best.value, p)
  {
    if ix.best.Some? {
      forall p | p in ix.ht && p != ix.best.value
        ensures Better(ix.side, ix.best.value, p)
      {
        var m :| 0 <= m < |ix.lst| && ix.lst[m] == p;
        assert m != 0;
      }
    }
  }

  /** Taking away the top level makes the old second level the new top. */
  lemma RemoveBestPromotesSecond(ix: Index)
    requires Valid(ix) && Size(ix) >= 2
    ensures ix.lst[0] in ix.ht && ix.lst[0] in ix.lst
    ensures Size(Remove(ix, ix.lst[0])) == Size(ix) - 1
    ensures At(Remove(ix, ix.lst[0]), 0).price == At(ix, 1).price
  {
    var r := Remove(ix, ix.lst[0]);
    assert IntrusiveList.IndexOf(ix.lst, ix.lst[0]) == 0;
    assert r.lst[0] == ix.lst[1];
  }

  /** Linking a new price and removing it again gives the original index back. */
  lemma RemoveLink(ix: Index, price: int)
    requires Valid(ix) && price !in ix.ht
    ensures price in Link(ix, price).ht && price in Link(ix, price).lst
    ensures Remove(Link(ix, price), price) == ix
  {
    LinkValid(ix, price);
    var r := Link(ix, price);
    var node := IntrusiveList.FindFirst(ix.lst, n => Dir(ix.side) * (n - price) <= 0);
    assert r.lst == IntrusiveList.InsertBefore(ix.lst, node, price);
    assert price !in ix.lst;
    IntrusiveList.RemoveInsertBefore(ix.lst, node, price);
    var back := Remove(r, price);
    EraseFresh(ix.ht, price, NewLevel(price));
    assert back.lst == ix.lst;
    if ix.best.Some? {
      DirBetter(ix.side, price, ix.best.value);
      if r.best == Some(price) {
        assert r.lst[0] == price;
        assert r.lst[1] == ix.lst[0];
      } else {
        assert r.best == ix.best;
      }
    } else {
      assert |r.lst| == 1;
    }
    assert back.best == ix.best;
  }

}

=== FILE: literal_list.dfy ===
/**
  The pointer-linked list `LList` exactly as its code is written, and the
  side index built on it. A node is named by an int (a price for the side
  index, a pool slot for a level queue); its `next` and `prev` links live in
  two maps, a missing key being the null pointer.

  Three of its operations do not do what the list is used for, and each is
  shown by a concrete session below:
  - `insert_before` past the head links the new node to the successor of the
    anchor instead of to the anchor, so the anchor and everything after it
    fall off the list (`LostLevel`);
  - `push_front` never sets the old head's `prev`, so a later
    `insert_before` on that node takes the head path and the list loses its
    order (`MisorderedLevels`);
  - `remove` never resets the successor's `prev`, so a node that became the
    head keeps a stale `prev`; removing it then rewires that stale node and
    leaves `head` pointing at the removed node (`StuckLevel`).
  The sequence model in `IntrusiveList` is the corrected behaviour the rest
  of the model uses.
*/
module LiteralList {

  import opened Options
  import IntrusiveList
  import LevelsIndex

  datatype Links = Links(head: Option<int>, tail: Option<int>, next: map<int, int>, prev: map<int, int>)

  /** A fresh list: null head and tail, no links. */
  const Nil: Links := Links(None, None, map[], map[])

  function NextOf(l: Links, n: int): Option<int> {
    if n in l.next then Some(l.next[n]) else None
  }

  function PrevOf(l: Links, n: int): Option<int> {
    if n in l.prev then Some(l.prev[n]) else None
  }

  /** `n->next = v`. */
  function SetNext(l: Links, n: int, v: Option<int>): (r: Links)
    ensures NextOf(r, n) == v
    ensures forall m :: m != n ==> NextOf(r, m) == NextOf(l, m)
    ensures r.head == l.head && r.tail == l.tail && r.prev == l.prev
  {
    l.(next := if v.None? then l.next - {n} else l.next[n := v.value])
  }

  /** `n->prev = v`. */
  function SetPrev(l: Links, n: int, v: Option<int>): (r: Links)
    ensures PrevOf(r, n) == v
    ensures forall m :: m != n ==> PrevOf(r, m) == PrevOf(l, m)
    ensures r.head == l.head && r.tail == l.tail && r.next == l.next
  {
    l.(prev := if v.None? then l.prev - {n} else l.prev[n := v.value])
  }

  /** A non-null head comes with a non-null tail, which `push_back` dereferences. */
  predicate Ended(l: Links) {
    l.head.Some? ==> l.tail.Some?
  }

  /** `push_back`: on an empty list the item becomes head and tail; otherwise it is linked after the tail. */
  function PushBack(l: Links, item: int): (r: Links)
    requires Ended(l)
    ensures Ended(r) && r.tail == Some(item)
    ensures l.head.None? ==> r.head == Some(item)
    ensures l.head.Some? ==> r.head == l.head && NextOf(r, l.tail.value) == Some(item) && PrevOf(r, item) == l.tail
    ensures l.head.None? ==> r.next == l.next && r.prev == l.prev
    ensures l.head.Some? ==> forall m :: m != l.tail.value ==> NextOf(r, m) == NextOf(l, m)
    ensures l.head.Some? ==> forall m :: m != item ==> PrevOf(r, m) == PrevOf(l, m)
  {
    if l.head.None? then
      l.(head := Some(item), tail := Some(item))
    else
      SetPrev(SetNext(l, l.tail.value, Some(item)), item, l.tail).(tail := Some(item))
  }

  /** `push_front`: the item is linked before the old head, whose `prev` is left as it was. */
  function PushFront(l: Links, item: int): (r: Links)
    ensures Ended(r) && r.head == Some(item) && NextOf(r, item) == l.head
    ensures r.prev == l.prev
    ensures l.tail.Some? ==> r.tail == l.tail
    ensures l.tail.None? ==> r.tail == Some(item)
    ensures forall m :: m != item ==> NextOf(r, m) == NextOf(l, m)
  {
    var l1 := SetNext(l, item, l.head).(head := Some(item));
    if l1.tail.None? then l1.(tail := l1.head) else l1
  }

  /**
    `insert_before`: a null anchor appends, an anchor without `prev` takes
    the head path; otherwise the anchor's predecessor is linked to the item
    and the item to the anchor's successor. No `prev` link is written.
  */
  function InsertBefore(l: Links, node: Option<int>, item: int): (r: Links)
    requires Ended(l)
    ensures Ended(r)
    ensures node.None? ==> r == PushBack(l, item)
    ensures node.Some? && PrevOf(l, node.value).None? ==> r == PushFront(l, item)
    ensures node.Some? && PrevOf(l, node.value).Some? ==>
      var p := PrevOf(l, node.value).value;
      && r.head == l.head && r.tail == l.tail && r.prev == l.prev
      && (p != item ==> NextOf(r, p) == Some(item))
      && (p != node.value ==> NextOf(r, item) == NextOf(l, node.value))
      && (forall m :: m != p && m != item ==> NextOf(r, m) == NextOf(l, m))
  {
    if node.None? then
      PushBack(l, item)
    else if PrevOf(l, node.value).None? then
      PushFront(l, item)
    else
      var l1 := SetNext(l, PrevOf(l, node.value).value, Some(item));
      SetNext(l1, item, NextOf(l1, node.value))
  }

  /**
    `remove`: the item is unhooked from its predecessor (or from `head`),
    and `tail` falls back to the predecessor when the item was last; nobody's
    `prev` changes and the item keeps its own links. An item without `prev`
    is taken for the head.
  */
  function Remove(l: Links, item: int): (r: Links)
    requires Ended(l)
    ensures r.prev == l.prev
    ensures PrevOf(l, item).Some? || l.head == Some(item) ==> Ended(r)
    ensures PrevOf(l, item).Some? ==>
      var p := PrevOf(l, item).value;
      && r.head == l.head
      && NextOf(r, p) == NextOf(l, item)
      && (forall m :: m != p ==> NextOf(r, m) == NextOf(l, m))
      && r.tail == (if NextOf(l, item).None? then Some(p) else l.tail)
    ensures PrevOf(l, item).None? ==>
      && r.head == NextOf(l, item)
      && r.next == l.next
      && r.tail == (if NextOf(l, item).None? then None else l.tail)
  {
    match PrevOf(l, item)
    case Some(p) =>
      var l1 := SetNext(l, p, NextOf(l, item));
      if NextOf(l, item).None? then l1.(tail := Some(p)) else l1
    case None =>
      var l1 := l.(head := NextOf(l, item));
      if NextOf(l, item).None? then l1.(tail := None) else l1
  }

  /** `empty`: the head is null. */
  predicate Empty(l: Links) {
    l.head.None?
  }

  /**
    The nodes met walking `next` from `from`, at most `fuel` of them (the
    pointer walk itself has no bound and need not end on a cyclic list).
  */
  function Walk(l: Links, from: Option<int>, fuel: nat): (w: seq<int>)
    ensures |w| <= fuel
    ensures from.Some? && fuel > 0 ==> |w| > 0 && w[0] == from.value
    decreases fuel
  {
    if fuel == 0 || from.None? then [] else [from.value] + Walk(l, NextOf(l, from.value), fuel - 1)
  }

  /**
    `find_first`: the first node from `from` on that satisfies `pred`, null
    if none within `fuel` steps. It is the sequence `find_first` applied to
    the walk: no earlier node on the walk satisfies `pred`.
  */
  function FindFirst(l: Links, from: Option<int>, pred: int -> bool, fuel: nat): (r: Option<int>)
    ensures var w := Walk(l, from, fuel); var i := IntrusiveList.FindFirst(w, pred);
      r == if i.None? then None else Some(w[i.value])
    decreases fuel
  {
    if fuel == 0 || from.None? then None
    else if pred(from.value) then from
    else
      var w := Walk(l, from, fuel);
      assert w[1..] == Walk(l, NextOf(l, from.value), fuel - 1);
      FindFirst(l, NextOf(l, from.value), pred, fuel - 1)
  }

  // ---------------------------------------------------------------------------
  // The side index on top of it, as written

  /** A side index: its side, the filed prices, the price list and `best`. */
  datatype Index = Index(side: LevelsIndex.Side, prices: set<int>, links: Links, best: Option<int>)

  /** Enough steps to walk every list in the sessions below. */
  const Fuel: nat := 8

  /**
    The anchor test of the miss path, `Side*(n-price) <= 0`: level `n` is not
    strictly better than `price` (the two agree by `LevelsIndex.DirBetter`).
  */
  function NotBetter(side: LevelsIndex.Side, price: int): int -> bool {
    n => !LevelsIndex.Better(side, n, price)
  }

  /**
    The miss path of `operator[]`: file the price, link it before the anchor
    `find_first` picks, update `best`.
  */
  function Link(ix: Index, price: int): (r: Index)
    requires Ended(ix.links)
    ensures r.side == ix.side && r.prices == ix.prices + {price} && Ended(r.links)
    ensures var w := Walk(ix.links, ix.links.head, Fuel);
      var i := IntrusiveList.FindFirst(w, NotBetter(ix.side, price));
      r.links == InsertBefore(ix.links, if i.None? then None else Some(w[i.value]), price)
    ensures ix.best.None? ==> r.best == Some(price)
    ensures ix.best.Some? && LevelsIndex.Dir(ix.side) * (price - ix.best.value) > 0 ==> r.best == Some(price)
    ensures ix.best.Some? && LevelsIndex.Dir(ix.side) * (price - ix.best.value) <= 0 ==> r.best == ix.best
  {
    var node := FindFirst(ix.links, ix.links.head, NotBetter(ix.side, price), Fuel);
    var links := InsertBefore(ix.links, node, price);
    var best := if ix.best.None? || LevelsIndex.Dir(ix.side) * (price - ix.best.value) > 0 then Some(price) else ix.best;
    Index(ix.side, ix.prices + {price}, links, best)
  }

  /**
    `at`: `index` steps along `next` from `best`; null when the walk falls off
    the list. It is the node at position `index` of the walk from `from`.
  */
  function At(links: Links, from: Option<int>, index: nat): (r: Option<int>)
    ensures var w := Walk(links, from, index + 1); r == if index < |w| then Some(w[index]) else None
    decreases index
  {
    if index == 0 then from
    else if from.None? then None
    else
      var w := Walk(links, from, index + 1);
      assert w[1..] == Walk(links, NextOf(links, from.value), index);
      At(links, NextOf(links, from.value), index - 1)
  }

  /** The empty buy side. */
  const Buys: Index := Index(LevelsIndex.Buy, {}, Nil, None)

  /**
    Buys at 12, 10 and 11 (in ticks): 11 is spliced after 12 but pointed at
    the successor of 10, which is null, so walking the side meets 12 and 11
    only, though three levels are filed; `at(2)` returns null, which
    `getLevelPrice` then dereferences.
  */
  lemma LostLevel()
    ensures var ix := Link(Link(Link(Buys, 12), 10), 11);
      && ix.prices == {10, 11, 12}
      && Walk(ix.links, ix.links.head, Fuel) == [12, 11]
      && At(ix.links, ix.best, 2) == None
  {
    var ix1 := Link(Buys, 12);
    assert ix1.links == Links(Some(12), Some(12), map[], map[]);
    var ix2 := Link(ix1, 10);
    assert ix2.links == Links(Some(12), Some(10), map[12 := 10], map[10 := 12]);
    var ix3 := Link(ix2, 11);
    assert FindFirst(ix2.links, Some(12), NotBetter(LevelsIndex.Buy, 11), Fuel) == Some(10);
    assert ix3.links == Links(Some(12), Some(10), map[12 := 11], map[10 := 12]);
    assert ix3.best == Some(12);
  }

  /**
    Buys at 10, 12 and 11: 12 goes in front of 10 without becoming its
    `prev`, so 11 takes the head path as well. The list reads 11, 12, 10,
    and `at(1)` reports 10 while 11 is the second-best price.
  */
  lemma MisorderedLevels()
    ensures var ix := Link(Link(Link(Buys, 10), 12), 11);
      && ix.prices == {10, 11, 12}
      && Walk(ix.links, ix.links.head, Fuel) == [11, 12, 10]
      && At(ix.links, ix.best, 0) == Some(12)
      && At(ix.links, ix.best, 1) == Some(10)
  {
    var ix1 := Link(Buys, 10);
    assert ix1.links == Links(Some(10), Some(10), map[], map[]);
    var ix2 := Link(ix1, 12);
    assert ix2.links == Links(Some(12), Some(10), map[12 := 10], map[]);
    assert ix2.best == Some(12);
    var ix3 := Link(ix2, 11);
    assert FindFirst(ix2.links, Some(12), NotBetter(LevelsIndex.Buy, 11), Fuel) == Some(10);
    assert ix3.links == Links(Some(11), Some(10), map[12 := 10, 11 := 12], map[]);
    assert ix3.best == Some(12);
  }

  /**
    A level queue: orders in slots 1 and 2 appended, then removed in that
    order. Removing 1 makes 2 the head but leaves 2's `prev` at 1, so
    removing 2 rewires 1 instead of the head: the queue holds no order yet
    is not empty, and `deleteOrder` never removes the level.
  */
  lemma StuckLevel()
    ensures var q := Remove(Remove(PushBack(PushBack(Nil, 1), 2), 1), 2);
      && q.head == Some(2)
      && !Empty(q)
  {
    var q2 := PushBack(PushBack(Nil, 1), 2);
    assert q2 == Links(Some(1), Some(2), map[1 := 2], map[2 := 1]);
    var q3 := Remove(q2, 1);
    assert q3 == Links(Some(2), Some(2), map[1 := 2], map[2 := 1]);
  }
}

=== FILE: llist.dfy ===
/**
  The intrusive list `LList<T>`, as the sequence of elements from `head` to
  `tail`. The book uses it two ways: as the FIFO queue of a level (always
  `PushBack`) and as the priority order of a side's levels (`FindFirst` then
  `InsertBefore`).

  The source's pointer code does not keep the doubly-linked structure it is
  named for; this module models the sequence behaviour the operations are
  named for, and each function notes where the pointer code differs. The
  pointer code itself is modelled in module `LiteralList`.
*/
module IntrusiveList {

  import opened Options

  /** An intrusive list holds each element at most once: the links live in the element. */
  predicate Distinct<T(==)>(s: seq<T>) {
    forall i, j :: 0 <= i < j < |s| ==> s[i] != s[j]
  }

  /** `empty`: `head` is null. */
  predicate Empty<T>(s: seq<T>) {
    |s| == 0
  }

  /** `push_back`: `x` becomes the tail; the earlier elements keep their order. */
  function PushBack<T>(s: seq<T>, x: T): (r: seq<T>)
    ensures |r| == |s| + 1 && r[|s|] == x
    ensures forall k :: 0 <= k < |s| ==> r[k] == s[k]
  {
    s + [x]
  }

  /**
    `push_front`: `x` becomes the head; the earlier elements follow it.
    Divergence: the pointer code never sets the old head's `prev`, so the old
    head still looks like a head to `insert_before` and `remove`.
  */
  function PushFront<T>(s: seq<T>, x: T): (r: seq<T>)
    ensures |r| == |s| + 1 && r[0] == x
    ensures forall k :: 0 <= k < |s| ==> r[k + 1] == s[k]
  {
    [x] + s
  }

  /** `find_first`: the position of the first element, scanning from the head, that satisfies `pred`. */
  function FindFirst<T>(s: seq<T>, pred: T -> bool): (r: Option<nat>)
    ensures r.Some? ==> r.value < |s| && pred(s[r.value])
    ensures r.Some? ==> forall k :: 0 <= k < r.value ==> !pred(s[k])
    ensures r.None? ==> forall k :: 0 <= k < |s| ==> !pred(s[k])
  {
    if |s| == 0 then None
    else if pred(s[0]) then Some(0)
    else
      match FindFirst(s[1..], pred)
      case None => None
      case Some(k) => Some(k + 1)
  }

  /**
    `insert_before`: with no anchor, append at the tail; with the head as
    anchor, push at the front; otherwise splice `x` in just before the anchor.
    Divergence: the pointer code's splice sets `x.next` to the anchor's
    successor instead of the anchor, and never sets `x.prev` or `anchor.prev`.
  */
  function InsertBefore<T>(s: seq<T>, node: Option<nat>, x: T): (r: seq<T>)
    requires node.Some? ==> node.value < |s|
    ensures |r| == |s| + 1
    ensures var at := if node.None? then |s| else node.value;
      && r[at] == x
      && (forall k :: 0 <= k < at ==> r[k] == s[k])
      && (forall k :: at <= k < |s| ==> r[k + 1] == s[k])
  {
    if node.None? then PushBack(s, x)
    else if node.value == 0 then PushFront(s, x)
    else s[..node.value] + [x] + s[node.value..]
  }

  /** The elements after `insert_before` are the elements before it and the item. */
  lemma InsertBeforeMembers<T>(s: seq<T>, node: Option<nat>, x: T)
    requires node.Some? ==> node.value < |s|
    ensures forall y :: y in InsertBefore(s, node, x) <==> y in s || y == x
  {
    var r := InsertBefore(s, node, x);
    var at := if node.None? then |s| else node.value;
    forall y
      ensures y in r <==> y in s || y == x
    {
      if y in s {
        var m :| 0 <= m < |s| && s[m] == y;
        assert r[if m < at then m else m + 1] == y;
      }
      if y in r {
        var m :| 0 <= m < |r| && r[m] == y;
        if m != at {
          assert y == s[if m < at then m else m - 1];
        }
      }
    }
  }

  /** The position of an element: the first one, and under `Distinct` the only one. */
  function IndexOf<T(==)>(s: seq<T>, x: T): (i: nat)
    requires x in s
    ensures i < |s| && s[i] == x
    ensures forall k :: 0 <= k < i ==> s[k] != x
  {
    if s[0] == x then 0 else 1 + IndexOf(s[1..], x)
  }

  /**
    `remove`: unlink `x`; the elements before it and after it close up.
    Divergence: the pointer code never resets `x.next.prev`, so the successor
    of a removed head keeps pointing back at the removed element.
  */
  function Remove<T(==)>(s: seq<T>, x: T): (r: seq<T>)
    requires x in s
    ensures |r| == |s| - 1
    ensures var i := IndexOf(s, x);
      && (forall k :: 0 <= k < i ==> r[k] == s[k])
      && (forall k :: i <= k < |r| ==> r[k] == s[k + 1])
    ensures multiset(r) == multiset(s) - multiset{x}
  {
    var i := IndexOf(s, x);
    assert s == s[..i] + [x] + s[i + 1..];
    s[..i] + s[i + 1..]
  }

  /** Removing an element of a distinct list removes exactly that element. */
  lemma RemoveDistinct<T>(s: seq<T>, x: T)
    requires Distinct(s) && x in s
    ensures Distinct(Remove(s, x))
    ensures x !in Remove(s, x)
    ensures forall y :: y != x ==> (y in Remove(s, x) <==> y in s)
  {
    var r := Remove(s, x);
    var i := IndexOf(s, x);
    forall a, b | 0 <= a < b < |r|
      ensures r[a] != r[b]
    {
      var a' := if a < i then a else a + 1;
      var b' := if b < i then b else b + 1;
      assert r[a] == s[a'] && r[b] == s[b'];
    }
    forall k | 0 <= k < |r|
      ensures r[k] != x
    {
      var k' := if k < i then k else k + 1;
      assert r[k] == s[k'];
    }
    forall y | y != x && y in s
      ensures y in r
    {
      var m :| 0 <= m < |s| && s[m] == y;
      var k := if m < i then m else m - 1;
      assert r[k] == y;
    }
  }

  /** Inserting an element that was absent, wherever, and removing it again is the identity. */
  lemma RemoveInsertBefore<T>(s: seq<T>, node: Option<nat>, x: T)
    requires node.Some? ==> node.value < |s|
    requires x !in s
    ensures x in InsertBefore(s, node, x)
    ensures Remove(InsertBefore(s, node, x), x) == s
  {
    var t := InsertBefore(s, node, x);
    var at := if node.None? then |s| else node.value;
    assert t[at] == x;
    assert forall k :: 0 <= k < at ==> t[k] != x;
    assert IndexOf(t, x) == at;
    var r := Remove(t, x);
    assert |r| == |s|;
    forall k | 0 <= k < |s|
      ensures r[k] == s[k]
    {
    }
  }

  /** The FIFO use: appending an absent element and removing it again is the identity. */
  lemma RemovePushBack<T>(s: seq<T>, x: T)
    requires x !in s
    ensures Remove(PushBack(s, x), x) == s
  {
    RemoveInsertBefore(s, None, x);
  }

  /** A distinct sequence has as many distinct elements as positions. */
  lemma {:induction false} DistinctCard<T>(s: seq<T>)
    requires Distinct(s)
    ensures |set x | x in s| == |s|
  {
    if |s| > 0 {
      assert Distinct(s[1..]);
      DistinctCard(s[1..]);
      assert (set x | x in s) == (set x | x in s[1..]) + {s[0]};
      assert s[0] !in s[1..];
    }
  }

}

=== FILE: options.dfy ===
/** A nullable reference of the order book (`best`, a `find_first` hit, a list end) as a value. */
module Options {

  datatype Option<+T> = None | Some(value: T)

}

=== FILE: order_book.dfy ===
/**
  The order book (`OrderBook`): an id -> order table, the slot pool holding
  the orders, and the buy and sell side indices.
  The table maps an id to the slot of its order, which stands for the
  source's `Order*`.
*/
module OrderBook {

  import opened Options
  import Arena
  import opened Orders
  import IntrusiveList
  import PriceLevel
  import LevelsIndex

  type Level = PriceLevel.Level
  type Index = LevelsIndex.Index

  datatype Book = Book(ids: map<int, nat>, orders: Arena.Pool<Order>, buys: Index, sells: Index)

  /** The default pool capacity of the constructor. */
  const DefaultCapacity: nat := 1024

  /** The index of the buy side (`buy`) or of the sell side. */
  function SideIndex(b: Book, buy: bool): Index {
    if buy then b.buys else b.sells
  }

  function WithSide(b: Book, buy: bool, ix: Index): (r: Book)
    ensures SideIndex(r, buy) == ix && SideIndex(r, !buy) == SideIndex(b, !buy)
    ensures r.ids == b.ids && r.orders == b.orders
  {
    if buy then b.(buys := ix) else b.(sells := ix)
  }

  // ---------------------------------------------------------------------------
  // The book invariant

  /** The order in `slot` rests at `price` on side `buy` and is registered under its id. */
  ghost predicate Resting(slot: nat, price: int, buy: bool, ids: map<int, nat>, data: seq<Order>) {
    && slot < |data|
    && data[slot].price == price
    && IsBuy(data[slot]) == buy
    && data[slot].id in ids
    && ids[data[slot].id] == slot
  }

  /** A level's aggregates are right and its queue holds distinct orders resting at its price. */
  ghost predicate Queued(l: Level, buy: bool, ids: map<int, nat>, data: seq<Order>) {
    && PriceLevel.Consistent(l, data)
    && IntrusiveList.Distinct(l.queue)
    && forall k :: 0 <= k < |l.queue| ==> Resting(l.queue[k], l.price, buy, ids, data)
  }

  /** A level as the book keeps it: well queued and never empty. */
  ghost predicate LevelOk(l: Level, buy: bool, ids: map<int, nat>, data: seq<Order>) {
    Queued(l, buy, ids, data) && !PriceLevel.Empty(l)
  }

  ghost predicate SideOk(ix: Index, buy: bool, ids: map<int, nat>, data: seq<Order>) {
    forall p :: p in ix.ht ==> LevelOk(ix.ht[p], buy, ids, data)
  }

  /** The order registered under `id` is live in the pool and queued at its price on its side. */
  ghost predicate Placed(b: Book, id: int)
    requires id in b.ids
  {
    var slot := b.ids[id];
    && slot < |b.orders.data|
    && slot !in b.orders.free
    && b.orders.data[slot].id == id
    && var o := b.orders.data[slot];
       var ix := SideIndex(b, IsBuy(o));
       o.price in ix.ht && slot in ix.ht[o.price].queue
  }

  ghost predicate Registered(b: Book) {
    forall id :: id in b.ids ==> Placed(b, id)
  }

  /**
    The book invariant: both indices valid and on their own sides, the pool
    valid, every level consistent, non-empty and made of registered orders
    of its price and side, and every registered order queued in its level.
  */
  ghost predicate Valid(b: Book) {
    && b.buys.side == LevelsIndex.Buy
    && b.sells.side == LevelsIndex.Sell
    && LevelsIndex.Valid(b.buys)
    && LevelsIndex.Valid(b.sells)
    && Arena.Valid(b.orders)
    && SideOk(b.buys, true, b.ids, b.orders.data)
    && SideOk(b.sells, false, b.ids, b.orders.data)
    && Registered(b)
  }

  // ---------------------------------------------------------------------------
  // Frame lemmas

  /** The queued orders keep their records and their registrations from (`ids`, `data`) to (`ids'`, `data'`). */
  ghost predicate Untouched(q: seq<nat>, ids: map<int, nat>, data: seq<Order>, ids': map<int, nat>, data': seq<Order>) {
    forall k :: 0 <= k < |q| && q[k] < |data| ==>
      && q[k] < |data'|
      && data'[q[k]] == data[q[k]]
      && (data[q[k]].id in ids ==> data[q[k]].id in ids' && ids'[data[q[k]].id] == ids[data[q[k]].id])
  }

  lemma QueuedFrame(l: Level, buy: bool, ids: map<int, nat>, data: seq<Order>, ids': map<int, nat>, data': seq<Order>)
    requires Queued(l, buy, ids, data) && Untouched(l.queue, ids, data, ids', data')
    ensures Queued(l, buy, ids', data')
  {
    assert PriceLevel.InPool(l.queue, data');
    PriceLevel.SumFrame(l.queue, data, data');
    forall k | 0 <= k < |l.queue|
      ensures Resting(l.queue[k], l.price, buy, ids', data')
    {
      assert Resting(l.queue[k], l.price, buy, ids, data);
    }
  }

  lemma SideFrame(ix: Index, buy: bool, ids: map<int, nat>, data: seq<Order>, ids': map<int, nat>, data': seq<Order>)
    requires SideOk(ix, buy, ids, data)
    requires forall p :: p in ix.ht ==> Untouched(ix.ht[p].queue, ids, data, ids', data')
    ensures SideOk(ix, buy, ids', data')
  {
    forall p | p in ix.ht
      ensures LevelOk(ix.ht[p], buy, ids', data')
    {
      QueuedFrame(ix.ht[p], buy, ids, data, ids', data');
    }
  }

  /** Registrations are one to one: a slot is registered under the id its record carries. */
  lemma SlotOwner(b: Book, id: int, x: int)
    requires Valid(b) && id in b.ids && x in b.ids && b.ids[x] == b.ids[id]
    ensures x == id
  {
    assert Placed(b, id) && Placed(b, x);
  }

  /** A slot queued on a level of a valid book is queued on no other level. */
  lemma OnlyLevel(b: Book, buy: bool, p: int, slot: nat)
    requires Valid(b) && p in SideIndex(b, buy).ht && slot in SideIndex(b, buy).ht[p].queue
    ensures slot < |b.orders.data|
    ensures IsBuy(b.orders.data[slot]) == buy && b.orders.data[slot].price == p
    ensures b.orders.data[slot].id in b.ids && b.ids[b.orders.data[slot].id] == slot
  {
    var l := SideIndex(b, buy).ht[p];
    assert LevelOk(l, buy, b.ids, b.orders.data);
    var k :| 0 <= k < |l.queue| && l.queue[k] == slot;
    assert Resting(l.queue[k], l.price, buy, b.ids, b.orders.data);
    assert LevelsIndex.Valid(SideIndex(b, buy));
  }

  // ---------------------------------------------------------------------------
  // Construction and the protected helpers

  /** The constructor: an empty pool of `capacity` slots, no orders, no levels. */
  function NewBook(capacity: nat, filler: Order): (b: Book)
    ensures Valid(b)
    ensures b.ids == map[] && |b.orders.free| == capacity
    ensures LevelsIndex.Size(b.buys) == 0 && LevelsIndex.Size(b.sells) == 0
  {
    Book(map[], Arena.NewPool(capacity, filler), LevelsIndex.NewIndex(LevelsIndex.Buy), LevelsIndex.NewIndex(LevelsIndex.Sell))
  }

  /** `byId`: the slot of a known order, which holds the record carrying that id. */
  function ById(b: Book, id: int): (slot: nat)
    requires Valid(b) && id in b.ids
    ensures slot == b.ids[id]
    ensures slot < |b.orders.data| && b.orders.data[slot].id == id && slot !in b.orders.free
  {
    assert Placed(b, id);
    b.ids[id]
  }

  /** `popById`: unregister a known order and hand back its slot; the record itself stays. */
  function PopById(b: Book, id: int): (r: (Book, nat))
    requires Valid(b) && id in b.ids
    ensures r.0 == b.(ids := b.ids - {id})
    ensures r.1 == b.ids[id]
    ensures r.1 < |b.orders.data| && b.orders.data[r.1].id == id
    ensures forall x :: x in r.0.ids ==> r.0.ids[x] != r.1
  {
    var slot := ById(b, id);
    forall x | x in b.ids && x != id
      ensures b.ids[x] != slot
    {
      if b.ids[x] == slot {
        SlotOwner(b, id, x);
      }
    }
    (b.(ids := b.ids - {id}), slot)
  }

  /** `byOrder`: the level of an order's price on the order's side, created if missing. */
  function ByOrder(b: Book, o: Order): (r: (Book, Level))
    ensures var ix := SideIndex(r.0, IsBuy(o)); o.price in ix.ht && r.1 == ix.ht[o.price]
    ensures o.price in SideIndex(b, IsBuy(o)).ht ==> r.0 == b
    ensures r.0 == WithSide(b, IsBuy(o), SideIndex(r.0, IsBuy(o)))
    ensures SideIndex(r.0, IsBuy(o)) == LevelsIndex.Locate(SideIndex(b, IsBuy(o)), o.price).0
  {
    var (ix, l) := LevelsIndex.Locate(SideIndex(b, IsBuy(o)), o.price);
    if o.price in SideIndex(b, IsBuy(o)).ht then (b, l) else (WithSide(b, IsBuy(o), ix), l)
  }

  /**
    A write through the level pointer `byOrder` returned: only the level filed
    under the order's price changes; the priority list, `best`, the other
    side, the id table and the pool stay.
  */
  function PutLevel(b: Book, o: Order, l: Level): (r: Book)
    requires o.price in SideIndex(b, IsBuy(o)).ht
    ensures var ix := SideIndex(b, IsBuy(o)); SideIndex(r, IsBuy(o)) == ix.(ht := ix.ht[o.price := l])
    ensures SideIndex(r, !IsBuy(o)) == SideIndex(b, !IsBuy(o))
    ensures r.ids == b.ids && r.orders == b.orders
  {
    WithSide(b, IsBuy(o), LevelsIndex.Update(SideIndex(b, IsBuy(o)), o.price, l))
  }

  /** `byLevel`: the level `level` places from the top of the side whose sign is `side`. */
  function ByLevel(b: Book, level: nat, side: int): (l: Level)
    requires Valid(b) && level < LevelsIndex.Size(SideIndex(b, side > 0))
    ensures l == LevelsIndex.At(SideIndex(b, side > 0), level)
    ensures LevelOk(l, side > 0, b.ids, b.orders.data)
  {
    var ix := if side > 0 then b.buys else b.sells;
    var l := LevelsIndex.At(ix, level);
    assert l == ix.ht[ix.lst[level]] && ix.lst[level] in ix.ht;
    l
  }

  // ---------------------------------------------------------------------------
  // newOrder

  /**
    `newOrder`: store the order with size `+size` for 'b' and `-size` for 's'
    in a pool slot, append it to the level of its price on its side (the side
    read back from the stored sign), and register its id.
  */
  function NewOrder(b: Book, id: int, side: char, size: int, price: int): (r: Book)
    requires Arena.Valid(b.orders) && IsSideChar(side) && id !in b.ids
    ensures r.ids.Keys == b.ids.Keys + {id}
    ensures forall x :: x in b.ids ==> r.ids[x] == b.ids[x]
    ensures var o := Order(id, ToSide(side) * size, price);
      && r.ids[id] < |r.orders.data| && r.orders.data[r.ids[id]] == o
      && price in SideIndex(r, IsBuy(o)).ht
      && var q := SideIndex(r, IsBuy(o)).ht[price].queue; |q| > 0 && q[|q| - 1] == r.ids[id]
    ensures var o := Order(id, ToSide(side) * size, price); SideIndex(r, !IsBuy(o)) == SideIndex(b, !IsBuy(o))
  {
    var (orders, slot) := Arena.Insert(b.orders, Order(id, ToSide(side) * size, price));
    var ord := orders.data[slot];
    var (b1, lvl) := ByOrder(b.(orders := orders), ord);
    var b2 := PutLevel(b1, ord, PriceLevel.Insert(lvl, slot, b1.orders.data));
    b2.(ids := b2.ids[ord.id := slot])
  }

  /** The slot `newOrder` takes is not the slot of any registered order, and live slots stay off the free list. */
  lemma NewSlotFresh(b: Book, o: Order)
    requires Valid(b)
    ensures var (pool, slot) := Arena.Insert(b.orders, o);
      && (forall x :: x in b.ids ==> b.ids[x] != slot && b.ids[x] < |b.orders.data| && b.ids[x] !in pool.free)
      && RecordsKept(b.ids, b.orders.data, b.ids, pool.data)
  {
    var (pool, slot) := Arena.Insert(b.orders, o);
    forall x | x in b.ids
      ensures b.ids[x] != slot && b.ids[x] < |b.orders.data| && b.ids[x] !in pool.free
    {
      assert Placed(b, x);
      if |b.orders.free| > 0 {
        assert b.orders.free == pool.free + [slot];
      }
    }
  }

  /** Every registered slot keeps its record from `data` to `data'`. */
  ghost predicate RecordsKept(ids: map<int, nat>, data: seq<Order>, ids': map<int, nat>, data': seq<Order>) {
    forall x :: x in ids ==> ids[x] < |data| ==> ids[x] < |data'| && data'[ids[x]] == data[ids[x]]
  }

  /** Levels made of registered orders survive a change that keeps every registration and its record. */
  lemma SideKeeps(ix: Index, buy: bool, ids: map<int, nat>, data: seq<Order>, ids': map<int, nat>, data': seq<Order>)
    requires SideOk(ix, buy, ids, data)
    requires RecordsKept(ids, data, ids, data')
    requires forall x :: x in ids ==> x in ids' && ids'[x] == ids[x]
    ensures SideOk(ix, buy, ids', data')
  {
    forall p | p in ix.ht
      ensures Untouched(ix.ht[p].queue, ids, data, ids', data')
    {
      var l := ix.ht[p];
      forall k | 0 <= k < |l.queue| && l.queue[k] < |data|
        ensures l.queue[k] < |data'| && data'[l.queue[k]] == data[l.queue[k]]
      {
        assert Resting(l.queue[k], l.price, buy, ids, data);
      }
    }
    SideFrame(ix, buy, ids, data, ids', data');
  }

  /** Appending a fresh resting order to a well-queued level gives a level the book can keep. */
  lemma InsertLevelOk(l: Level, slot: nat, buy: bool, ids: map<int, nat>, data: seq<Order>)
    requires Queued(l, buy, ids, data) && slot !in l.queue
    requires Resting(slot, l.price, buy, ids, data)
    ensures LevelOk(PriceLevel.Insert(l, slot, data), buy, ids, data)
  {
    var l2 := PriceLevel.Insert(l, slot, data);
    assert l2.queue == l.queue + [slot];
    forall k | 0 <= k < |l2.queue|
      ensures Resting(l2.queue[k], l2.price, buy, ids, data)
    {
      if k < |l.queue| {
        assert l2.queue[k] == l.queue[k];
      }
    }
  }

  /** `newOrder` keeps the book invariant. */
  lemma NewOrderValid(b: Book, id: int, side: char, size: int, price: int)
    requires Valid(b) && IsSideChar(side) && id !in b.ids
    ensures Valid(NewOrder(b, id, side, size, price))
  {
    var o := Order(id, ToSide(side) * size, price);
    var buy := IsBuy(o);
    var (pool, slot) := Arena.Insert(b.orders, o);
    NewSlotFresh(b, o);
    var ids := b.ids[id := slot];
    var data := pool.data;
    var ix := SideIndex(b, buy);
    var (ix1, lvl) := LevelsIndex.Locate(ix, price);
    var lvl2 := PriceLevel.Insert(lvl, slot, data);
    var ix2 := LevelsIndex.Update(ix1, price, lvl2);
    var r := NewOrder(b, id, side, size, price);
    assert r == WithSide(Book(ids, pool, b.buys, b.sells), buy, ix2);

    // Every level already on the book stays as it was.
    SideKeeps(b.buys, true, b.ids, b.orders.data, ids, data);
    SideKeeps(b.sells, false, b.ids, b.orders.data, ids, data);
    assert Resting(slot, price, buy, ids, data);
    assert LevelsIndex.Valid(ix1);
    assert lvl.price == price;
    // The level receiving the order.
    if price in ix.ht {
      assert LevelOk(lvl, buy, ids, data);
      forall k | 0 <= k < |lvl.queue|
        ensures lvl.queue[k] != slot
      {
        assert Resting(lvl.queue[k], price, buy, b.ids, b.orders.data);
      }
    }
    InsertLevelOk(lvl, slot, buy, ids, data);
    assert SideOk(ix2, buy, ids, data) by {
      forall p | p in ix2.ht
        ensures LevelOk(ix2.ht[p], buy, ids, data)
      {
        if p != price {
          assert ix2.ht[p] == ix.ht[p];
        }
      }
    }
    assert Registered(r) by {
      forall x | x in r.ids
        ensures Placed(r, x)
      {
        if x != id {
          assert Placed(b, x);
          var sx := b.ids[x];
          var ox := b.orders.data[sx];
          if IsBuy(ox) == buy && ox.price == price {
            assert sx in lvl.queue;
            assert lvl2.queue == lvl.queue + [slot];
          }
        }
      }
    }
  }

  // ---------------------------------------------------------------------------
  // deleteOrder

  /**
    `deleteOrder`: unregister the order, take it out of its level, release its
    slot, and remove the level from its side if that left it empty.
  */
  function DeleteOrder(b: Book, id: int): (r: Book)
    requires Valid(b) && id in b.ids
    ensures r.ids == b.ids - {id}
    ensures r.orders == Arena.Remove(b.orders, b.ids[id])
    ensures var o := b.orders.data[b.ids[id]]; SideIndex(r, !IsBuy(o)) == SideIndex(b, !IsBuy(o))
  {
    var (b1, slot) := PopById(b, id);
    var ord := b1.orders.data[slot];
    assert Placed(b, id);
    var (b2, lvl) := ByOrder(b1, ord);
    var lvl2 := PriceLevel.Remove(lvl, slot, b2.orders.data);
    var b3 := PutLevel(b2, ord, lvl2);
    var b4 := b3.(orders := Arena.Remove(b3.orders, slot));
    DeleteLinked(b, id);
    if PriceLevel.Empty(lvl2) then
      WithSide(b4, IsBuy(ord), LevelsIndex.Remove(SideIndex(b4, IsBuy(ord)), ord.price))
    else
      b4
  }

  /** The level a delete leaves behind is still in the priority list, so it can be unlinked. */
  lemma DeleteLinked(b: Book, id: int)
    requires Valid(b) && id in b.ids
    ensures var o := b.orders.data[b.ids[id]]; var ix := SideIndex(b, IsBuy(o));
      o.price in ix.ht && o.price in ix.lst && b.ids[id] in ix.ht[o.price].queue
  {
    assert Placed(b, id);
    var o := b.orders.data[b.ids[id]];
    assert LevelsIndex.Valid(SideIndex(b, IsBuy(o)));
  }

  /** Taking one of its orders out of a level the book keeps leaves it well queued for the other ids. */
  lemma RemoveQueued(b: Book, id: int)
    requires Valid(b) && id in b.ids
    ensures var slot := b.ids[id]; var o := b.orders.data[slot];
      var l := SideIndex(b, IsBuy(o)).ht[o.price];
      Queued(PriceLevel.Remove(l, slot, b.orders.data), IsBuy(o), b.ids - {id}, b.orders.data)
  {
    DeleteLinked(b, id);
    var slot := b.ids[id];
    var data := b.orders.data;
    var o := data[slot];
    var buy := IsBuy(o);
    var l := SideIndex(b, buy).ht[o.price];
    assert LevelOk(l, buy, b.ids, data);
    var l2 := PriceLevel.Remove(l, slot, data);
    IntrusiveList.RemoveDistinct(l.queue, slot);
    var i := IntrusiveList.IndexOf(l.queue, slot);
    forall k | 0 <= k < |l2.queue|
      ensures Resting(l2.queue[k], l2.price, buy, b.ids - {id}, data)
    {
      var k' := if k < i then k else k + 1;
      assert l2.queue[k] == l.queue[k'];
      assert Resting(l.queue[k'], l.price, buy, b.ids, data);
      assert l.queue[k'] != slot;
    }
  }

  /** Every level other than the order's own holds only orders registered under other ids. */
  lemma OtherLevelsKept(b: Book, id: int, buy: bool)
    requires Valid(b) && id in b.ids
    ensures var slot := b.ids[id]; var o := b.orders.data[slot];
      forall p :: p in SideIndex(b, buy).ht && (buy != IsBuy(o) || p != o.price) ==>
        slot !in SideIndex(b, buy).ht[p].queue
        && Untouched(SideIndex(b, buy).ht[p].queue, b.ids, b.orders.data, b.ids - {id}, b.orders.data)
  {
    var slot := b.ids[id];
    var data := b.orders.data;
    assert Placed(b, id);
    var ix := SideIndex(b, buy);
    forall p | p in ix.ht && (buy != IsBuy(data[slot]) || p != data[slot].price)
      ensures slot !in ix.ht[p].queue
      ensures Untouched(ix.ht[p].queue, b.ids, data, b.ids - {id}, data)
    {
      var l := ix.ht[p];
      assert LevelOk(l, buy, b.ids, data);
      forall k | 0 <= k < |l.queue|
        ensures l.queue[k] != slot && data[l.queue[k]].id != id
      {
        assert Resting(l.queue[k], l.price, buy, b.ids, data);
        assert LevelsIndex.Valid(ix);
      }
    }
  }

  /** `deleteOrder` keeps the book invariant. */
  lemma DeleteOrderValid(b: Book, id: int)
    requires Valid(b) && id in b.ids
    ensures Valid(DeleteOrder(b, id))
  {
    var slot := b.ids[id];
    var data := b.orders.data;
    var o := data[slot];
    var buy := IsBuy(o);
    var ids := b.ids - {id};
    DeleteLinked(b, id);
    RemoveQueued(b, id);
    OtherLevelsKept(b, id, true);
    OtherLevelsKept(b, id, false);
    var ix := SideIndex(b, buy);
    var lvl := ix.ht[o.price];
    var lvl2 := PriceLevel.Remove(lvl, slot, data);
    var ix2 := LevelsIndex.Update(ix, o.price, lvl2);
    var pool := Arena.Remove(b.orders, slot);
    assert Placed(b, id);
    assert Arena.Valid(pool);
    var b4 := WithSide(Book(ids, pool, b.buys, b.sells), buy, ix2);
    var ix3 := if PriceLevel.Empty(lvl2) then LevelsIndex.Remove(ix2, o.price) else ix2;
    var r := WithSide(Book(ids, pool, b.buys, b.sells), buy, ix3);
    assert DeleteOrder(b, id) == r;
    assert lvl2.price == o.price;
    assert LevelsIndex.Valid(ix3);

    // The other side keeps every level.
    SideFrame(SideIndex(b, !buy), !buy, b.ids, data, ids, data);
    // This side keeps every other level, and the order's level if it is not empty.
    assert SideOk(ix3, buy, ids, data) by {
      SideFrameExcept(ix, buy, b.ids, data, ids, o.price);
      forall p | p in ix3.ht
        ensures LevelOk(ix3.ht[p], buy, ids, data)
      {
        if p != o.price {
          assert ix3.ht[p] == ix.ht[p];
        }
      }
    }
    DeleteRegistered(b, id);
  }

  /** The side index `deleteOrder` leaves on the order's side. */
  function DeletedSide(b: Book, id: int): Index
    requires Valid(b) && id in b.ids
  {
    var slot := b.ids[id];
    var o := b.orders.data[slot];
    DeleteLinked(b, id);
    var lvl2 := PriceLevel.Remove(SideIndex(b, IsBuy(o)).ht[o.price], slot, b.orders.data);
    var ix2 := LevelsIndex.Update(SideIndex(b, IsBuy(o)), o.price, lvl2);
    if PriceLevel.Empty(lvl2) then LevelsIndex.Remove(ix2, o.price) else ix2
  }

  /** What `deleteOrder` leaves on the order's side: the other levels as they were, the order's level without it. */
  lemma DeletedSideLevels(b: Book, id: int)
    requires Valid(b) && id in b.ids
    ensures var slot := b.ids[id]; var o := b.orders.data[slot]; var ix := SideIndex(b, IsBuy(o));
      var lvl2 := PriceLevel.Remove(ix.ht[o.price], slot, b.orders.data);
      var ix3 := DeletedSide(b, id);
      && (forall p :: p in ix.ht && p != o.price ==> p in ix3.ht && ix3.ht[p] == ix.ht[p])
      && (!PriceLevel.Empty(lvl2) ==> o.price in ix3.ht && ix3.ht[o.price] == lvl2)
  {
    DeleteLinked(b, id);
    var slot := b.ids[id];
    var o := b.orders.data[slot];
    var ix := SideIndex(b, IsBuy(o));
    WriteBackLevels(ix, o.price, PriceLevel.Remove(ix.ht[o.price], slot, b.orders.data));
  }

  /** Writing a level back, and unlinking it when it is empty, leaves the other levels as they were. */
  lemma WriteBackLevels(ix: Index, price: int, lvl2: Level)
    requires price in ix.ht && price in ix.lst
    ensures var ix2 := LevelsIndex.Update(ix, price, lvl2);
      var ix3 := if PriceLevel.Empty(lvl2) then LevelsIndex.Remove(ix2, price) else ix2;
      && (forall p :: p in ix.ht && p != price ==> p in ix3.ht && ix3.ht[p] == ix.ht[p])
      && (!PriceLevel.Empty(lvl2) ==> price in ix3.ht && ix3.ht[price] == lvl2)
  {
  }

  /** The book `deleteOrder` produces, assembled from its parts. */
  function Deleted(b: Book, id: int): Book
    requires Valid(b) && id in b.ids
  {
    assert Placed(b, id);
    var slot := b.ids[id];
    WithSide(Book(b.ids - {id}, Arena.Remove(b.orders, slot), b.buys, b.sells), IsBuy(b.orders.data[slot]), DeletedSide(b, id))
  }

  lemma DeleteShape(b: Book, id: int)
    requires Valid(b) && id in b.ids
    ensures DeleteOrder(b, id) == Deleted(b, id)
  {
    DeleteLinked(b, id);
  }

  /** Every order still registered after `deleteOrder` is still queued at its price on its side. */
  lemma DeleteRegistered(b: Book, id: int)
    requires Valid(b) && id in b.ids
    ensures Registered(DeleteOrder(b, id))
  {
    DeleteShape(b, id);
    forall x | x in Deleted(b, id).ids
      ensures Placed(Deleted(b, id), x)
    {
      StillPlaced(b, id, x);
    }
  }

  /** The parts of the book `deleteOrder` produces. */
  lemma DeletedParts(b: Book, id: int)
    requires Valid(b) && id in b.ids
    ensures var r := Deleted(b, id); var slot := b.ids[id]; var o := b.orders.data[slot];
      && r.ids == b.ids - {id}
      && r.orders == Arena.Remove(b.orders, slot)
      && SideIndex(r, IsBuy(o)) == DeletedSide(b, id)
      && SideIndex(r, !IsBuy(o)) == SideIndex(b, !IsBuy(o))
  {
    assert Placed(b, id);
  }

  /** An order other than the deleted one is still live, and queued at its price on its side. */
  lemma StillPlaced(b: Book, id: int, x: int)
    requires Valid(b) && id in b.ids && x in b.ids && x != id
    ensures x in Deleted(b, id).ids && Placed(Deleted(b, id), x)
  {
    var slot := b.ids[id];
    var data := b.orders.data;
    var o := data[slot];
    var buy := IsBuy(o);
    DeletedParts(b, id);
    var r := Deleted(b, id);
    assert Placed(b, x);
    var sx := b.ids[x];
    var ox := data[sx];
    assert r.ids[x] == sx && r.orders.data == data;
    assert sx != slot by {
      if sx == slot {
        SlotOwner(b, id, x);
      }
    }
    assert sx !in r.orders.free by {
      assert r.orders.free == b.orders.free + [slot];
    }
    StillQueued(b, id, x);
  }

  /** An order other than the deleted one is still queued at its price on its side. */
  lemma StillQueued(b: Book, id: int, x: int)
    requires Valid(b) && id in b.ids && x in b.ids && x != id
    ensures b.ids[x] < |b.orders.data|
    ensures var sx := b.ids[x];
      var ox := b.orders.data[sx];
      var ix := SideIndex(Deleted(b, id), IsBuy(ox));
      ox.price in ix.ht && sx in ix.ht[ox.price].queue
  {
    var slot := b.ids[id];
    var data := b.orders.data;
    var o := data[slot];
    var buy := IsBuy(o);
    DeletedParts(b, id);
    var r := Deleted(b, id);
    assert Placed(b, x);
    var sx := b.ids[x];
    var ox := data[sx];
    if IsBuy(ox) != buy {
      assert SideIndex(r, IsBuy(ox)) == SideIndex(b, IsBuy(ox));
    } else {
      DeleteLinked(b, id);
      DeletedSideLevels(b, id);
      if ox.price != o.price {
        assert SideIndex(r, buy).ht[ox.price] == SideIndex(b, buy).ht[ox.price];
      } else {
        var lvl := SideIndex(b, buy).ht[o.price];
        var lvl2 := PriceLevel.Remove(lvl, slot, data);
        assert sx != slot by {
          if sx == slot {
            SlotOwner(b, id, x);
          }
        }
        assert LevelOk(lvl, buy, b.ids, data);
        IntrusiveList.RemoveDistinct(lvl.queue, slot);
        assert sx in lvl2.queue;
        assert SideIndex(r, buy).ht[ox.price] == lvl2;
      }
    }
  }

  /** Levels at prices other than `price` carry over when only their queues' registrations are kept. */
  lemma SideFrameExcept(ix: Index, buy: bool, ids: map<int, nat>, data: seq<Order>, ids': map<int, nat>, price: int)
    requires SideOk(ix, buy, ids, data)
    requires forall p :: p in ix.ht && p != price ==> Untouched(ix.ht[p].queue, ids, data, ids', data)
    ensures forall p :: p in ix.ht && p != price ==> LevelOk(ix.ht[p], buy, ids', data)
  {
    forall p | p in ix.ht && p != price
      ensures LevelOk(ix.ht[p], buy, ids', data)
    {
      QueuedFrame(ix.ht[p], buy, ids, data, ids', data);
    }
  }

  // ---------------------------------------------------------------------------
  // changeOrder and replaceOrder

  /**
    `newSize` keeps the side of the order registered under `id`. Only then does
    `changeOrder` keep the book invariant: a size of the other sign turns the
    record into an order of the other side while it stays queued on its own.
  */
  predicate KeepsSide(b: Book, id: int, newSize: int) {
    && id in b.ids
    && b.ids[id] < |b.orders.data|
    && (newSize > 0 <==> IsBuy(b.orders.data[b.ids[id]]))
  }

  /**
    `changeOrder`: the order keeps its slot, its level and its place in that
    level's queue; the level's aggregate moves by `newSize - oldSize`; the
    registrations, the free list, the other levels and both depths stay.
  */
  function ChangeOrder(b: Book, id: int, newSize: int): (r: Book)
    requires Valid(b) && id in b.ids
    ensures r.ids == b.ids && r.orders.free == b.orders.free
    ensures b.ids[id] < |b.orders.data|
    ensures var slot := b.ids[id]; var o := b.orders.data[slot];
      && |r.orders.data| == |b.orders.data|
      && r.orders.data[slot] == o.(size := newSize)
      && (forall s :: 0 <= s < |b.orders.data| && s != slot ==> r.orders.data[s] == b.orders.data[s])
    ensures var o := b.orders.data[b.ids[id]]; var ix := SideIndex(b, IsBuy(o)); var ix' := SideIndex(r, IsBuy(o));
      && SideIndex(r, !IsBuy(o)) == SideIndex(b, !IsBuy(o))
      && ix'.side == ix.side && ix'.lst == ix.lst && ix'.best == ix.best && ix'.ht.Keys == ix.ht.Keys
      && o.price in ix.ht
      && ix'.ht[o.price] == ix.ht[o.price].(size := ix.ht[o.price].size + newSize - o.size)
      && (forall p :: p in ix.ht && p != o.price ==> ix'.ht[p] == ix.ht[p])
  {
    var slot := ById(b, id);
    var ord := b.orders.data[slot];
    assert Placed(b, id);
    var (b1, lvl) := ByOrder(b, ord);
    var b2 := PutLevel(b1, ord, lvl.(size := lvl.size + newSize - ord.size));
    b2.(orders := Arena.Write(b2.orders, slot, ord.(size := newSize)))
  }

  /** `changeOrder` keeps the book invariant. */
  lemma ChangeOrderValid(b: Book, id: int, newSize: int)
    requires Valid(b) && KeepsSide(b, id, newSize)
    ensures Valid(ChangeOrder(b, id, newSize))
  {
    var slot := b.ids[id];
    var data := b.orders.data;
    var o := data[slot];
    var buy := IsBuy(o);
    var data' := data[slot := o.(size := newSize)];
    var r := ChangeOrder(b, id, newSize);
    assert r.orders.data == data';
    var ix := SideIndex(b, buy);
    var lvl := ix.ht[o.price];
    var lvl' := lvl.(size := lvl.size + newSize - o.size);
    ChangeOtherLevels(b, id, newSize);
    ChangeOwnLevel(b, id, newSize);
    assert SideOk(SideIndex(r, buy), buy, r.ids, data') by {
      forall p | p in SideIndex(r, buy).ht
        ensures LevelOk(SideIndex(r, buy).ht[p], buy, b.ids, data')
      {
        if p == o.price {
          assert SideIndex(r, buy).ht[p] == lvl';
        }
      }
    }
    assert LevelsIndex.Valid(SideIndex(r, buy)) by {
      assert LevelsIndex.Valid(ix);
      assert SideIndex(r, buy) == LevelsIndex.Update(ix, o.price, lvl');
    }
    ChangeRegistered(b, id, newSize);
  }

  /** Rewriting one record leaves every level but the order's own consistent, on both sides. */
  lemma ChangeOtherLevels(b: Book, id: int, newSize: int)
    requires Valid(b) && id in b.ids
    ensures b.ids[id] < |b.orders.data|
    ensures var slot := b.ids[id]; var data := b.orders.data; var o := data[slot];
      var data' := data[slot := o.(size := newSize)]; var ix := SideIndex(b, IsBuy(o));
      && SideOk(SideIndex(b, !IsBuy(o)), !IsBuy(o), b.ids, data')
      && (forall p :: p in ix.ht && p != o.price ==> LevelOk(ix.ht[p], IsBuy(o), b.ids, data'))
  {
    var slot := b.ids[id];
    var data := b.orders.data;
    assert Placed(b, id);
    var o := data[slot];
    var buy := IsBuy(o);
    var data' := data[slot := o.(size := newSize)];
    OtherLevelsKept(b, id, true);
    OtherLevelsKept(b, id, false);
    forall bside: bool, p | p in SideIndex(b, bside).ht && (bside != buy || p != o.price)
      ensures Untouched(SideIndex(b, bside).ht[p].queue, b.ids, data, b.ids, data')
    {
      var q := SideIndex(b, bside).ht[p].queue;
      assert slot !in q;
      assert Untouched(q, b.ids, data, b.ids - {id}, data);
      forall k | 0 <= k < |q| && q[k] < |data|
        ensures data'[q[k]] == data[q[k]]
      {
        assert q[k] != slot;
      }
    }
    SideFrame(SideIndex(b, !buy), !buy, b.ids, data, b.ids, data');
    var ix := SideIndex(b, buy);
    forall p | p in ix.ht && p != o.price
      ensures LevelOk(ix.ht[p], buy, b.ids, data')
    {
      QueuedFrame(ix.ht[p], buy, b.ids, data, b.ids, data');
    }
  }

  /** The order's own level keeps its queue, and its aggregate moves by the difference of the sizes. */
  lemma ChangeOwnLevel(b: Book, id: int, newSize: int)
    requires Valid(b) && KeepsSide(b, id, newSize)
    ensures var slot := b.ids[id]; var data := b.orders.data; var o := data[slot];
      var ix := SideIndex(b, IsBuy(o));
      && o.price in ix.ht
      && var lvl := ix.ht[o.price];
         LevelOk(lvl.(size := lvl.size + newSize - o.size), IsBuy(o), b.ids, data[slot := o.(size := newSize)])
  {
    var slot := b.ids[id];
    var data := b.orders.data;
    assert Placed(b, id);
    var o := data[slot];
    var o' := o.(size := newSize);
    var buy := IsBuy(o);
    var data' := data[slot := o'];
    var lvl := SideIndex(b, buy).ht[o.price];
    assert LevelOk(lvl, buy, b.ids, data);
    PriceLevel.SumResize(lvl.queue, slot, data, o');
    forall k | 0 <= k < |lvl.queue|
      ensures Resting(lvl.queue[k], lvl.price, buy, b.ids, data')
    {
      assert Resting(lvl.queue[k], lvl.price, buy, b.ids, data);
    }
  }

  lemma ChangeRegistered(b: Book, id: int, newSize: int)
    requires Valid(b) && KeepsSide(b, id, newSize)
    ensures Registered(ChangeOrder(b, id, newSize))
  {
    var r := ChangeOrder(b, id, newSize);
    var slot := b.ids[id];
    var o := b.orders.data[slot];
    forall x | x in r.ids
      ensures Placed(r, x)
    {
      assert Placed(b, x);
      var sx := b.ids[x];
      var ox := b.orders.data[sx];
      if sx == slot {
        assert r.orders.data[sx] == o.(size := newSize);
      } else {
        assert r.orders.data[sx] == ox;
      }
      if IsBuy(ox) == IsBuy(o) && ox.price == o.price {
        assert SideIndex(r, IsBuy(o)).ht[o.price].queue == SideIndex(b, IsBuy(o)).ht[o.price].queue;
      }
    }
  }

  /** The signed size an order of `o`'s side carries for the quantity `qty`, as `newOrder` signs it with `toSide`. */
  function SignedQuantity(o: Order, qty: int): (n: int)
    ensures Abs(n) == Abs(qty)
    ensures qty > 0 ==> (n > 0 <==> IsBuy(o))
  {
    if IsBuy(o) then qty else -qty
  }

  /**
    `changeOrder` as its callers use it: `qty` is an unsigned quantity (the
    driver passes the one it reads), signed by the order's side before it is
    stored. The order keeps its side, the book stays valid, and the level
    reports its total moved by the change in quantity.
  */
  function ChangeQuantity(b: Book, id: int, qty: int): (r: Book)
    requires Valid(b) && id in b.ids && qty > 0
    ensures Valid(r) && r.ids == b.ids
    ensures var o := b.orders.data[b.ids[id]]; var o' := r.orders.data[r.ids[id]];
      && o' == o.(size := SignedQuantity(o, qty))
      && IsBuy(o') == IsBuy(o) && Abs(o'.size) == qty
    ensures var o := b.orders.data[b.ids[id]]; var ix := SideIndex(b, IsBuy(o)); var ix' := SideIndex(r, IsBuy(o));
      && ix'.lst == ix.lst && ix'.ht.Keys == ix.ht.Keys && o.price in ix.ht
      && ix'.ht[o.price] == ix.ht[o.price].(size := ix.ht[o.price].size - o.size + SignedQuantity(o, qty))
      && (forall p :: p in ix.ht && p != o.price ==> ix'.ht[p] == ix.ht[p])
    ensures var o := b.orders.data[b.ids[id]]; SideIndex(r, !IsBuy(o)) == SideIndex(b, !IsBuy(o))
  {
    var slot := ById(b, id);
    var n := SignedQuantity(b.orders.data[slot], qty);
    ChangeOrderValid(b, id, n);
    ChangeOrder(b, id, n)
  }

  /** The registrations after a delete of `oldId` followed by a new order `newId`. */
  lemma ReplaceIds(m: map<int, nat>, d: map<int, nat>, r: map<int, nat>, oldId: int, newId: int)
    requires d == m - {oldId}
    requires r.Keys == d.Keys + {newId} && forall x :: x in d ==> r[x] == d[x]
    ensures r.Keys == m.Keys - {oldId} + {newId}
    ensures forall x :: x in m && x != oldId && x != newId ==> x in r && r[x] == m[x]
  {
  }

  /** `replaceOrder`: `deleteOrder(oldId)`, then `newOrder(newId, ...)` on the result; not atomic. */
  function ReplaceOrder(b: Book, oldId: int, newId: int, side: char, size: int, price: int): (r: Book)
    requires Valid(b) && oldId in b.ids && IsSideChar(side)
    requires newId !in b.ids || newId == oldId
    ensures Valid(r)
    ensures r.ids.Keys == b.ids.Keys - {oldId} + {newId}
    ensures forall x :: x in b.ids && x != oldId && x != newId ==> x in r.ids && r.ids[x] == b.ids[x]
    ensures newId in r.ids && r.ids[newId] < |r.orders.data|
    ensures r.orders.data[r.ids[newId]] == Order(newId, ToSide(side) * size, price)
  {
    DeleteOrderValid(b, oldId);
    var d := DeleteOrder(b, oldId);
    var r := NewOrder(d, newId, side, size, price);
    NewOrderValid(d, newId, side, size, price);
    ReplaceIds(b.ids, d.ids, r.ids, oldId, newId);
    r
  }

  // ---------------------------------------------------------------------------
  // Queries

  /** The side character names the buy side. */
  predicate BuySide(side: char) {
    side == 'b'
  }

  /** The prices at which registered orders of side `buy` rest. */
  ghost function RestingPrices(b: Book, buy: bool): set<int> {
    set id | id in b.ids && b.ids[id] < |b.orders.data| && IsBuy(b.orders.data[b.ids[id]]) == buy :: b.orders.data[b.ids[id]].price
  }

  /** The levels of a side are exactly the prices its registered orders rest at. */
  lemma LevelsAreRestingPrices(b: Book, buy: bool)
    requires Valid(b)
    ensures SideIndex(b, buy).ht.Keys == RestingPrices(b, buy)
  {
    var ix := SideIndex(b, buy);
    forall p | p in ix.ht
      ensures p in RestingPrices(b, buy)
    {
      var l := ix.ht[p];
      assert LevelOk(l, buy, b.ids, b.orders.data);
      assert Resting(l.queue[0], l.price, buy, b.ids, b.orders.data);
      assert LevelsIndex.Valid(ix);
      var id := b.orders.data[l.queue[0]].id;
      assert b.ids[id] == l.queue[0];
    }
    forall p | p in RestingPrices(b, buy)
      ensures p in ix.ht
    {
      var id :| id in b.ids && b.ids[id] < |b.orders.data| && IsBuy(b.orders.data[b.ids[id]]) == buy && b.orders.data[b.ids[id]].price == p;
      assert Placed(b, id);
    }
  }

  /**
    `getNumLevels`: the depth of the side named by `side`, which is the number
    of distinct prices its registered orders rest at.
  */
  function GetNumLevels(b: Book, side: char): (n: nat)
    requires Valid(b) && IsSideChar(side)
    ensures n == |RestingPrices(b, BuySide(side))|
  {
    LevelsAreRestingPrices(b, BuySide(side));
    if ToSide(side) == 1 then LevelsIndex.Size(b.buys) else LevelsIndex.Size(b.sells)
  }

  /**
    `getLevelPrice`: the price of level `level`, 0 being the top of the book.
    It is a price registered orders of that side rest at, and exactly `level`
    such prices are strictly better.
  */
  function GetLevelPrice(b: Book, side: char, level: nat): (p: int)
    requires Valid(b) && IsSideChar(side) && level < GetNumLevels(b, side)
    ensures p in RestingPrices(b, BuySide(side))
    ensures |set q | q in RestingPrices(b, BuySide(side)) && LevelsIndex.Better(SideIndex(b, BuySide(side)).side, q, p)| == level
  {
    LevelsAreRestingPrices(b, BuySide(side));
    ByLevel(b, level, ToSide(side)).price
  }

  /** The signed sizes of a side's orders all carry that side's sign, and so does their sum. */
  lemma {:induction false} SumSign(q: seq<nat>, data: seq<Order>, buy: bool)
    requires PriceLevel.InPool(q, data)
    requires forall k :: 0 <= k < |q| ==> IsBuy(data[q[k]]) == buy
    ensures buy ==> PriceLevel.SumSizes(q, data) >= 0
    ensures buy && |q| > 0 ==> PriceLevel.SumSizes(q, data) > 0
    ensures !buy ==> PriceLevel.SumSizes(q, data) <= 0
  {
    if |q| > 0 {
      SumSign(q[1..], data, buy);
    }
  }

  /**
    `getLevelSize`: the total quantity resting at level `level`: the sum of
    its orders' sizes, with the sell side's negative sign dropped.
  */
  function GetLevelSize(b: Book, side: char, level: nat): (n: int)
    requires Valid(b) && IsSideChar(side) && level < GetNumLevels(b, side)
    ensures var l := LevelsIndex.At(SideIndex(b, BuySide(side)), level);
      PriceLevel.InPool(l.queue, b.orders.data) &&
      n == (if side == 'b' then 1 else -1) * PriceLevel.SumSizes(l.queue, b.orders.data)
    ensures n >= 0
  {
    var l := ByLevel(b, level, ToSide(side));
    assert forall k :: 0 <= k < |l.queue| ==> Resting(l.queue[k], l.price, BuySide(side), b.ids, b.orders.data);
    SumSign(l.queue, b.orders.data, BuySide(side));
    Abs(l.size)
  }

  /** `std::abs`. */
  function Abs(x: int): (r: int)
    ensures r >= 0 && (r == x || r == -x)
  {
    if x < 0 then -x else x
  }

  /**
    `getLevelOrderCount`: the number of orders queued at level `level`, whose
    queue holds exactly the registered orders of that side and price.
  */
  function GetLevelOrderCount(b: Book, side: char, level: nat): (n: int)
    requires Valid(b) && IsSideChar(side) && level < GetNumLevels(b, side)
    ensures var l := LevelsIndex.At(SideIndex(b, BuySide(side)), level);
      && n == |l.queue| && n > 0
      && forall id :: id in b.ids ==>
           (b.ids[id] in l.queue <==>
              b.ids[id] < |b.orders.data| && IsBuy(b.orders.data[b.ids[id]]) == (BuySide(side)) && b.orders.data[b.ids[id]].price == l.price)
  {
    var l := ByLevel(b, level, ToSide(side));
    LevelMembers(b, BuySide(side), level);
    l.count
  }

  /** The depth query reads the size of the side's index. */
  lemma QueryDepth(b: Book, side: char)
    requires Valid(b) && IsSideChar(side)
    ensures GetNumLevels(b, side) == LevelsIndex.Size(SideIndex(b, BuySide(side)))
  {
  }

  /** `getLevelPrice` reads the price of the level `at` returns. */
  lemma QueryPrice(b: Book, side: char, level: nat)
    requires Valid(b) && IsSideChar(side) && level < GetNumLevels(b, side)
    ensures GetLevelPrice(b, side, level) == LevelsIndex.At(SideIndex(b, BuySide(side)), level).price
  {
  }

  /** `getLevelOrderCount` reads the count of the level `at` returns. */
  lemma QueryCount(b: Book, side: char, level: nat)
    requires Valid(b) && IsSideChar(side) && level < GetNumLevels(b, side)
    ensures GetLevelOrderCount(b, side, level) == LevelsIndex.At(SideIndex(b, BuySide(side)), level).count
  {
  }

  /** The queue of a level holds exactly the registered orders of its side and price. */
  lemma LevelMembers(b: Book, buy: bool, level: nat)
    requires Valid(b) && level < LevelsIndex.Size(SideIndex(b, buy))
    ensures var l := LevelsIndex.At(SideIndex(b, buy), level);
      forall id :: id in b.ids ==>
        (b.ids[id] in l.queue <==>
           b.ids[id] < |b.orders.data| && IsBuy(b.orders.data[b.ids[id]]) == buy && b.orders.data[b.ids[id]].price == l.price)
  {
    var ix := SideIndex(b, buy);
    var l := LevelsIndex.At(ix, level);
    assert ix.lst[level] in ix.ht;
    assert LevelOk(l, buy, b.ids, b.orders.data);
    forall id | id in b.ids
      ensures b.ids[id] in l.queue <==>
        b.ids[id] < |b.orders.data| && IsBuy(b.orders.data[b.ids[id]]) == buy && b.orders.data[b.ids[id]].price == l.price
    {
      assert Placed(b, id);
      if b.ids[id] in l.queue {
        var k :| 0 <= k < |l.queue| && l.queue[k] == b.ids[id];
        assert Resting(l.queue[k], l.price, buy, b.ids, b.orders.data);
      }
    }
  }

  // ---------------------------------------------------------------------------
  // Properties across operations

  /** The slot a new order takes is queued nowhere yet. */
  lemma NewSlotNotQueued(b: Book, o: Order)
    requires Valid(b)
    ensures var slot := Arena.Insert(b.orders, o).1; var ix := SideIndex(b, IsBuy(o));
      o.price in ix.ht ==> slot !in ix.ht[o.price].queue
  {
    var slot := Arena.Insert(b.orders, o).1;
    var ix := SideIndex(b, IsBuy(o));
    NewSlotFresh(b, o);
    if o.price in ix.ht {
      var l := ix.ht[o.price];
      assert LevelOk(l, IsBuy(o), b.ids, b.orders.data);
      forall k | 0 <= k < |l.queue|
        ensures l.queue[k] != slot
      {
        assert Resting(l.queue[k], l.price, IsBuy(o), b.ids, b.orders.data);
      }
    }
  }

  /** Registering a fresh id and unregistering it again gives the table back. */
  lemma UnregisterFresh(ids: map<int, nat>, id: int, slot: nat)
    requires id !in ids
    ensures ids[id := slot] - {id} == ids
  {
    assert (ids[id := slot] - {id}).Keys == ids.Keys;
  }

  /** On one side index: appending a fresh slot to the level at `price` and taking it out again changes nothing. */
  lemma RestoreSide(ix: Index, price: int, slot: nat, data: seq<Order>)
    requires LevelsIndex.Valid(ix) && slot < |data|
    requires price in ix.ht ==> slot !in ix.ht[price].queue && !PriceLevel.Empty(ix.ht[price])
    ensures var (ix1, lvl) := LevelsIndex.Locate(ix, price);
      var ix2 := LevelsIndex.Update(ix1, price, PriceLevel.Insert(lvl, slot, data));
      && price in ix2.ht && price in ix2.lst && slot in ix2.ht[price].queue
      && var lvl3 := PriceLevel.Remove(ix2.ht[price], slot, data);
         var ix3 := LevelsIndex.Update(ix2, price, lvl3);
         (if PriceLevel.Empty(lvl3) then LevelsIndex.Remove(ix3, price) else ix3) == ix
  {
    var (ix1, lvl) := LevelsIndex.Locate(ix, price);
    assert lvl.price == price;
    PriceLevel.RemoveInsert(lvl, slot, data);
    RestoreLevel(ix1, price, lvl, slot, data);
    if price !in ix.ht {
      LevelsIndex.RemoveLink(ix, price);
    }
  }

  /** Writing an inserted-then-removed level back through its pointer gives the index it came from. */
  lemma RestoreLevel(ix1: Index, price: int, lvl: Level, slot: nat, data: seq<Order>)
    requires price in ix1.ht && ix1.ht[price] == lvl && slot < |data|
    requires PriceLevel.Remove(PriceLevel.Insert(lvl, slot, data), slot, data) == lvl
    ensures var ix2 := LevelsIndex.Update(ix1, price, PriceLevel.Insert(lvl, slot, data));
      && price in ix2.ht && slot in ix2.ht[price].queue
      && LevelsIndex.Update(ix2, price, PriceLevel.Remove(ix2.ht[price], slot, data)) == ix1
  {
    var ix2 := LevelsIndex.Update(ix1, price, PriceLevel.Insert(lvl, slot, data));
    assert ix1.ht[price := lvl] == ix1.ht;
  }

  /** The book `newOrder` produces, assembled from its parts. */
  lemma NewOrderShape(b: Book, id: int, side: char, size: int, price: int)
    requires Valid(b) && IsSideChar(side) && id !in b.ids
    ensures var o := Order(id, ToSide(side) * size, price);
      var (pool, slot) := Arena.Insert(b.orders, o);
      var (ix1, lvl) := LevelsIndex.Locate(SideIndex(b, IsBuy(o)), price);
      NewOrder(b, id, side, size, price)
        == WithSide(Book(b.ids[id := slot], pool, b.buys, b.sells), IsBuy(o),
                    LevelsIndex.Update(ix1, price, PriceLevel.Insert(lvl, slot, pool.data)))
  {
  }

  /**
    An order priced strictly better than every level of its side opens a new
    top level holding just that order.
  */
  lemma NewOrderNewBest(b: Book, id: int, side: char, size: int, price: int)
    requires Valid(b) && IsSideChar(side) && id !in b.ids
    requires var o := Order(id, ToSide(side) * size, price);
      forall p :: p in SideIndex(b, IsBuy(o)).ht ==> LevelsIndex.Better(SideIndex(b, IsBuy(o)).side, price, p)
    ensures var o := Order(id, ToSide(side) * size, price);
      var r := NewOrder(b, id, side, size, price);
      var ix' := SideIndex(r, IsBuy(o));
      && ix'.lst == [price] + SideIndex(b, IsBuy(o)).lst
      && ix'.best == Some(price)
      && ix'.ht.Keys == SideIndex(b, IsBuy(o)).ht.Keys + {price}
      && ix'.ht[price] == PriceLevel.Level(price, 1, o.size, [r.ids[id]])
  {
    NewOrderShape(b, id, side, size, price);
    var o := Order(id, ToSide(side) * size, price);
    var ix := SideIndex(b, IsBuy(o));
    assert LevelsIndex.Valid(ix);
    var (pool, slot) := Arena.Insert(b.orders, o);
    NewBestSide(ix, price, slot, pool.data);
  }

  /** Filing an order at a price strictly better than every level of a side opens a new top level holding just it. */
  lemma NewBestSide(ix: Index, price: int, slot: nat, data: seq<Order>)
    requires LevelsIndex.Valid(ix) && slot < |data|
    requires forall p :: p in ix.ht ==> LevelsIndex.Better(ix.side, price, p)
    ensures var (ix1, lvl) := LevelsIndex.Locate(ix, price);
      var ix' := LevelsIndex.Update(ix1, price, PriceLevel.Insert(lvl, slot, data));
      && ix'.lst == [price] + ix.lst
      && ix'.best == Some(price)
      && ix'.ht.Keys == ix.ht.Keys + {price}
      && ix'.ht[price] == PriceLevel.Level(price, 1, data[slot].size, [slot])
  {
    assert price !in ix.ht by {
      if price in ix.ht {
        LevelsIndex.DirBetter(ix.side, price, price);
      }
    }
    LevelsIndex.LinkNewBest(ix, price);
    assert PriceLevel.Insert(PriceLevel.NewLevel(price), slot, data) == PriceLevel.Level(price, 1, data[slot].size, [slot]);
  }

  /**
    `deleteOrder` undoes `newOrder`: the registrations and both sides, with
    every level's queue, count and aggregate, are exactly as before, and so
    is every query. Only the pool keeps a trace (a stale record, and a slot
    on the free list).
  */
  lemma NewThenDeleteRestores(b: Book, id: int, side: char, size: int, price: int)
    requires Valid(b) && IsSideChar(side) && id !in b.ids
    ensures Valid(NewOrder(b, id, side, size, price))
    ensures id in NewOrder(b, id, side, size, price).ids
    ensures var d := DeleteOrder(NewOrder(b, id, side, size, price), id);
      d.ids == b.ids && d.buys == b.buys && d.sells == b.sells
  {
    NewOrderValid(b, id, side, size, price);
    NewOrderShape(b, id, side, size, price);
    var o := Order(id, ToSide(side) * size, price);
    var (pool, slot) := Arena.Insert(b.orders, o);
    var r := NewOrder(b, id, side, size, price);
    assert r.ids == b.ids[id := slot];
    DeleteShape(r, id);
    UnregisterFresh(b.ids, id, slot);
    NewSlotNotQueued(b, o);
    var ix := SideIndex(b, IsBuy(o));
    if price in ix.ht {
      assert LevelOk(ix.ht[price], IsBuy(o), b.ids, b.orders.data);
    }
    RestoreSide(ix, price, slot, pool.data);
    assert DeletedSide(r, id) == ix;
  }

  /** Deleting the only order of a level unlinks that level and leaves the rest of the side as it was. */
  lemma DeletedSideLast(b: Book, id: int)
    requires Valid(b) && id in b.ids
    requires var o := b.orders.data[b.ids[id]]; |SideIndex(b, IsBuy(o)).ht[o.price].queue| == 1
    ensures var o := b.orders.data[b.ids[id]]; var ix := SideIndex(b, IsBuy(o));
      o.price in ix.ht && o.price in ix.lst && DeletedSide(b, id) == LevelsIndex.Remove(ix, o.price)
  {
    DeleteLinked(b, id);
    var slot := b.ids[id];
    var o := b.orders.data[slot];
    var ix := SideIndex(b, IsBuy(o));
    var l := ix.ht[o.price];
    var lvl2 := PriceLevel.Remove(l, slot, b.orders.data);
    assert l.queue == [slot];
    assert PriceLevel.Empty(lvl2);
    assert ix.ht[o.price := lvl2] - {o.price} == ix.ht - {o.price};
  }

  /**
    Deleting the only order of the top level removes that level: the side
    loses one level and its old second level becomes the top.
  */
  lemma DeleteTopPromotesSecond(b: Book, id: int, side: char)
    requires Valid(b) && id in b.ids && IsSideChar(side)
    requires b.ids[id] < |b.orders.data| && IsBuy(b.orders.data[b.ids[id]]) == BuySide(side)
    requires GetNumLevels(b, side) >= 2
    requires GetLevelPrice(b, side, 0) == b.orders.data[b.ids[id]].price
    requires GetLevelOrderCount(b, side, 0) == 1
    ensures Valid(DeleteOrder(b, id))
    ensures GetNumLevels(DeleteOrder(b, id), side) == GetNumLevels(b, side) - 1
    ensures GetLevelPrice(DeleteOrder(b, id), side, 0) == GetLevelPrice(b, side, 1)
  {
    DeleteOrderValid(b, id);
    var o := b.orders.data[b.ids[id]];
    var buy := BuySide(side);
    var ix := SideIndex(b, buy);
    var d := DeleteOrder(b, id);
    QueryDepth(b, side);
    QueryPrice(b, side, 0);
    QueryCount(b, side, 0);
    QueryPrice(b, side, 1);
    assert |LevelsIndex.At(ix, 0).queue| == 1;
    DeleteTopSide(b, id);
    QueryDepth(d, side);
    QueryPrice(d, side, 0);
  }

  /** The side index after deleting the only order of the top level, when a second level exists. */
  lemma DeleteTopSide(b: Book, id: int)
    requires Valid(b) && id in b.ids
    requires var o := b.orders.data[b.ids[id]]; var ix := SideIndex(b, IsBuy(o));
      && LevelsIndex.Size(ix) >= 2
      && LevelsIndex.At(ix, 0).price == o.price
      && |LevelsIndex.At(ix, 0).queue| == 1
    ensures var o := b.orders.data[b.ids[id]]; var ix := SideIndex(b, IsBuy(o));
      var ix' := SideIndex(DeleteOrder(b, id), IsBuy(o));
      && LevelsIndex.Valid(ix')
      && LevelsIndex.Size(ix') == LevelsIndex.Size(ix) - 1
      && LevelsIndex.At(ix', 0).price == LevelsIndex.At(ix, 1).price
  {
    DeleteShape(b, id);
    DeletedParts(b, id);
    var o := b.orders.data[b.ids[id]];
    var ix := SideIndex(b, IsBuy(o));
    DeletedSideLast(b, id);
    LevelsIndex.RemoveBestPromotesSecond(ix);
  }

  /**
    `changeOrder` moves no order and no level: every side keeps its depth and
    every level its price and its order count.
  */
  lemma ChangeKeepsLevels(b: Book, id: int, newSize: int, side: char, level: nat)
    requires Valid(b) && KeepsSide(b, id, newSize) && IsSideChar(side)
    requires level < GetNumLevels(b, side)
    ensures Valid(ChangeOrder(b, id, newSize))
    ensures GetNumLevels(ChangeOrder(b, id, newSize), side) == GetNumLevels(b, side)
    ensures GetLevelPrice(ChangeOrder(b, id, newSize), side, level) == GetLevelPrice(b, side, level)
    ensures GetLevelOrderCount(ChangeOrder(b, id, newSize), side, level) == GetLevelOrderCount(b, side, level)
  {
    ChangeOrderValid(b, id, newSize);
    var c := ChangeOrder(b, id, newSize);
    var ix := SideIndex(b, BuySide(side));
    var ix' := SideIndex(c, BuySide(side));
    ChangedIndex(b, id, newSize, BuySide(side), level);
    QueryDepth(b, side);
    QueryDepth(c, side);
    QueryPrice(b, side, level);
    QueryPrice(c, side, level);
    QueryCount(b, side, level);
    QueryCount(c, side, level);
  }

  /**
    After `changeOrder` the level holding the order reports the size moved by
    `newSize - oldSize`; every other level reports what it did before.
  */
  lemma ChangeLevelSize(b: Book, id: int, newSize: int, side: char, level: nat)
    requires Valid(b) && KeepsSide(b, id, newSize) && IsSideChar(side)
    requires level < GetNumLevels(b, side)
    ensures Valid(ChangeOrder(b, id, newSize))
    ensures level < GetNumLevels(ChangeOrder(b, id, newSize), side)
    ensures var o := b.orders.data[b.ids[id]];
      var l := LevelsIndex.At(SideIndex(b, BuySide(side)), level);
      GetLevelSize(ChangeOrder(b, id, newSize), side, level)
        == if IsBuy(o) == BuySide(side) && o.price == l.price
           then Abs(l.size + newSize - o.size)
           else GetLevelSize(b, side, level)
  {
    ChangeOrderValid(b, id, newSize);
    var c := ChangeOrder(b, id, newSize);
    var ix := SideIndex(b, BuySide(side));
    var ix' := SideIndex(c, BuySide(side));
    ChangedIndex(b, id, newSize, BuySide(side), level);
    assert GetNumLevels(c, side) == LevelsIndex.Size(ix');
    assert GetLevelSize(c, side, level) == Abs(LevelsIndex.At(ix', level).size);
    assert GetLevelSize(b, side, level) == Abs(LevelsIndex.At(ix, level).size);
    var o := b.orders.data[b.ids[id]];
    var l := LevelsIndex.At(ix, level);
    if IsBuy(o) == BuySide(side) && o.price == l.price {
      assert LevelsIndex.At(ix', level).size == l.size + newSize - o.size;
    } else {
      assert LevelsIndex.At(ix', level) == l;
    }
  }

  /** On each side, `changeOrder` keeps every level in place; only the order's own level gets a new size. */
  lemma ChangedIndex(b: Book, id: int, newSize: int, buy: bool, level: nat)
    requires Valid(b) && id in b.ids
    requires level < LevelsIndex.Size(SideIndex(b, buy))
    ensures b.ids[id] < |b.orders.data|
    ensures var ix := SideIndex(b, buy); var ix' := SideIndex(ChangeOrder(b, id, newSize), buy);
      var o := b.orders.data[b.ids[id]];
      var l := LevelsIndex.At(ix, level);
      && LevelsIndex.Valid(ix')
      && LevelsIndex.Size(ix') == LevelsIndex.Size(ix)
      && level < LevelsIndex.Size(ix')
      && LevelsIndex.At(ix', level)
         == if IsBuy(o) == buy && o.price == l.price then l.(size := l.size + newSize - o.size) else l
  {
    var c := ChangeOrder(b, id, newSize);
    var o := b.orders.data[b.ids[id]];
    var ix := SideIndex(b, buy);
    if IsBuy(o) == buy {
      var lvl' := ix.ht[o.price].(size := ix.ht[o.price].size + newSize - o.size);
      var ix' := SideIndex(c, buy);
      assert ix'.ht == ix.ht[o.price := lvl'];
      assert ix' == LevelsIndex.Update(ix, o.price, lvl');
      LevelsIndex.UpdateAt(ix, o.price, lvl', level);
    } else {
      assert SideIndex(c, buy) == ix;
    }
  }

}

=== FILE: orders.dfy ===
/**
  A resting order and the side encoding. Prices are integer ticks: the book
  only compares prices for equality and by the sign of a difference.
  The `next`/`prev` links of the source record belong to the queue that holds
  the order and are modelled by that queue's sequence.
*/
module Orders {

  /** Identifier, signed size (the sign carries the side), price in ticks. */
  datatype Order = Order(id: int, size: int, price: int)

  /** `Order::isBuy`: the side is read back from the sign, so only a positive size is a buy. */
  predicate IsBuy(o: Order) {
    o.size > 0
  }

  /** The side characters the book accepts. */
  predicate IsSideChar(c: char) {
    c == 'b' || c == 's'
  }

  /** `toSide`: a unit whose sign is the side; any other character fails the source's assertion. */
  function ToSide(c: char): (r: int)
    requires IsSideChar(c)
    ensures r * r == 1
    ensures r > 0 <==> c == 'b'
  {
    if c == 'b' then 1 else -1
  }

  /**
    An order created for side `c` with size `size` is read back as a buy
    exactly when it was a positive buy or a negative sell; in particular a
    buy of size 0 is treated as a sell.
  */
  lemma CreatedSide(id: int, c: char, size: int, price: int)
    requires IsSideChar(c)
    ensures IsBuy(Order(id, ToSide(c) * size, price)) <==> (c == 'b' && size > 0) || (c == 's' && size < 0)
    ensures Order(id, ToSide(c) * size, price).size == if c == 'b' then size else -size
  {
  }

}

=== FILE: scenarios.dfy ===
/**
  Short sessions, with prices in ticks of 0.01 (10.00 is 1000): a buy
  session and a sell session, each on any valid book with no levels on its
  side (a fresh one, say); the `changeOrder` session as written on a fresh
  book of any capacity; and the first slot a default-sized book hands out.
*/
module Scenarios {

  import opened Orders
  import PriceLevel
  import LevelsIndex
  import opened OrderBook

  /**
    Buys of 100 at 10.00 and of 50 at 10.50 on a book with no buy levels
    (a fresh one, say): the better price 10.50 is the top of the book with
    50 resting and the side is two levels deep; once the 10.50 order is
    deleted, 10.00 is the top and the side one level deep.
  */
  lemma BuySession(b0: Book)
    requires Valid(b0) && 1 !in b0.ids && 2 !in b0.ids && LevelsIndex.Size(b0.buys) == 0
    ensures var b1 := NewOrder(b0, 1, 'b', 100, 1000);
      && Valid(b1) && 2 !in b1.ids
      && var b2 := NewOrder(b1, 2, 'b', 50, 1050);
      && Valid(b2)
      && GetNumLevels(b2, 'b') == 2
      && GetLevelPrice(b2, 'b', 0) == 1050
      && GetLevelSize(b2, 'b', 0) == 50
      && 2 in b2.ids
      && var b3 := DeleteOrder(b2, 2);
      && Valid(b3)
      && GetNumLevels(b3, 'b') == 1
      && GetLevelPrice(b3, 'b', 0) == 1000
  {
    FirstBuy(b0);
    var b1 := NewOrder(b0, 1, 'b', 100, 1000);
    SecondBuy(b1);
    var b2 := NewOrder(b1, 2, 'b', 50, 1050);
    TwoBuyLevels(b2);
    DeleteTopPromotesSecond(b2, 2, 'b');
  }

  /** The first buy opens the only buy level. */
  lemma FirstBuy(b0: Book)
    requires Valid(b0) && 1 !in b0.ids && 2 !in b0.ids && LevelsIndex.Size(b0.buys) == 0
    ensures var b1 := NewOrder(b0, 1, 'b', 100, 1000);
      && Valid(b1) && 2 !in b1.ids
      && b1.buys.lst == [1000] && b1.buys.ht.Keys == {1000}
  {
    NewOrderValid(b0, 1, 'b', 100, 1000);
    assert ToSide('b') == 1;
    assert b0.buys.ht.Keys == {} && b0.buys.lst == [];
    NewOrderNewBest(b0, 1, 'b', 100, 1000);
  }

  /** The second buy is strictly better, so it opens a new top level holding just itself. */
  lemma SecondBuy(b1: Book)
    requires Valid(b1) && 2 !in b1.ids
    requires b1.buys.lst == [1000] && b1.buys.ht.Keys == {1000}
    ensures var b2 := NewOrder(b1, 2, 'b', 50, 1050);
      && Valid(b2) && 2 in b2.ids
      && b2.buys.lst == [1050, 1000]
      && b2.buys.ht[1050] == PriceLevel.Level(1050, 1, 50, [b2.ids[2]])
      && b2.orders.data[b2.ids[2]] == Order(2, 50, 1050)
  {
    NewOrderValid(b1, 2, 'b', 50, 1050);
    assert ToSide('b') == 1;
    NewOrderNewBest(b1, 2, 'b', 50, 1050);
  }

  /** What the queries report on the two-level buy side. */
  lemma TwoBuyLevels(b2: Book)
    requires Valid(b2) && 2 in b2.ids
    requires b2.buys.lst == [1050, 1000]
    requires b2.buys.ht[1050] == PriceLevel.Level(1050, 1, 50, [b2.ids[2]])
    requires b2.orders.data[b2.ids[2]] == Order(2, 50, 1050)
    ensures GetNumLevels(b2, 'b') == 2
    ensures GetLevelPrice(b2, 'b', 0) == 1050 && GetLevelPrice(b2, 'b', 1) == 1000
    ensures GetLevelSize(b2, 'b', 0) == 50
    ensures GetLevelOrderCount(b2, 'b', 0) == 1
  {
    var ix := b2.buys;
    assert LevelsIndex.At(ix, 0) == ix.ht[1050];
    assert LevelsIndex.At(ix, 1).price == 1000;
  }

  /**
    A sell of 30 at 9.00 on a book with no sell levels, whose quantity is
    then changed to 80: the only sell level reports 80 resting in one order.
  */
  lemma SellSession(b0: Book)
    requires Valid(b0) && 3 !in b0.ids && LevelsIndex.Size(b0.sells) == 0
    ensures var b1 := NewOrder(b0, 3, 's', 30, 900);
      && Valid(b1) && 3 in b1.ids
      && var b2 := ChangeQuantity(b1, 3, 80);
      && GetNumLevels(b2, 's') == 1
      && GetLevelPrice(b2, 's', 0) == 900
      && GetLevelSize(b2, 's', 0) == 80
      && GetLevelOrderCount(b2, 's', 0) == 1
  {
    FirstSell(b0);
    var b1 := NewOrder(b0, 3, 's', 30, 900);
    var b2 := ChangeQuantity(b1, 3, 80);
    assert b2.sells.lst == [900];
    assert b2.sells.ht[900] == PriceLevel.Level(900, 1, -80, [b1.ids[3]]);
    assert LevelsIndex.At(b2.sells, 0) == b2.sells.ht[900];
  }

  /** The first sell opens the only sell level. */
  lemma FirstSell(b0: Book)
    requires Valid(b0) && 3 !in b0.ids && LevelsIndex.Size(b0.sells) == 0
    ensures var b1 := NewOrder(b0, 3, 's', 30, 900);
      && Valid(b1) && 3 in b1.ids
      && b1.orders.data[b1.ids[3]] == Order(3, -30, 900)
      && b1.sells.lst == [900] && b1.sells.ht.Keys == {900}
      && b1.sells.ht[900] == PriceLevel.Level(900, 1, -30, [b1.ids[3]])
  {
    NewOrderValid(b0, 3, 's', 30, 900);
    assert ToSide('s') == -1;
    assert b0.sells.ht.Keys == {} && b0.sells.lst == [];
    NewOrderNewBest(b0, 3, 's', 30, 900);
  }

  /**
    `changeOrder` as written, fed the unsigned quantity its driver reads: a
    sell of 30 at 9.00 changed to 80 now reads as a buy, yet it is still
    queued on the sell side, and the buy side has no level at 9.00 where a
    later `deleteOrder` would look for it. The book invariant is broken, but
    the sell side itself is intact: its one level at 9.00 still reports 80
    resting in one order, so only a later delete goes wrong.
  */
  lemma ChangeFlipsSellOrder(capacity: nat, filler: Order)
    ensures var b0 := NewBook(capacity, filler);
      var b1 := NewOrder(b0, 3, 's', 30, 900);
      && Valid(b1) && 3 in b1.ids
      && var c := ChangeOrder(b1, 3, 80);
      && IsBuy(c.orders.data[c.ids[3]])
      && 900 !in c.buys.ht
      && 900 in c.sells.ht && c.ids[3] in c.sells.ht[900].queue
      && !Valid(c)
      && LevelsIndex.Valid(c.sells) && LevelsIndex.Size(c.sells) == 1
      && LevelsIndex.At(c.sells, 0).price == 900
      && Abs(LevelsIndex.At(c.sells, 0).size) == 80
      && LevelsIndex.At(c.sells, 0).count == 1
  {
    var b0 := NewBook(capacity, filler);
    FirstSell(b0);
    var b1 := NewOrder(b0, 3, 's', 30, 900);
    NewOrderShape(b0, 3, 's', 30, 900);
    var c := ChangeOrder(b1, 3, 80);
    assert b1.buys == b0.buys;
    assert c.buys == b1.buys;
    assert b1.sells.ht[900].queue == [b1.ids[3]];
    assert !Placed(c, 3);
    assert c.sells.ht[900] == PriceLevel.Level(900, 1, 80, [b1.ids[3]]);
    assert c.sells.lst == [900];
  }

  /**
    A book built with the default capacity hands its first order the highest
    slot, 1023, which the constructor pushed last.
  */
  lemma DefaultBookFirstSlot(filler: Order, id: int, side: char, size: int, price: int)
    requires IsSideChar(side)
    ensures var b1 := NewOrder(NewBook(DefaultCapacity, filler), id, side, size, price);
      id in b1.ids && b1.ids[id] == 1023
  {
    var b0 := NewBook(DefaultCapacity, filler);
    NewOrderShape(b0, id, side, size, price);
  }
}
